=== FILE: README.md ===
# Sudoku grid reader — a Dafny model of its core

The Sudoku solver photographs a puzzle and reads its 81 cells in several steps:

1. It finds the grid's border lines with a Hough transform.
2. It merges lines that are near-duplicates.
3. It picks the top, bottom, left and right edges.
4. It intersects the edges in 32-bit integer arithmetic to get the four corners.
5. It warps the grid onto a square whose side is the longest side of the located quadrilateral.
6. It slices that square into 9 × 9 cells.
7. It hands every cell holding enough ink to an SVM digit classifier. The classifier learns from a CSV file of labelled samples, or reads back a model saved earlier.

This project models steps 2 to 7 as pure functions and methods, and proves what they do. One module per concern:

| module | file | what it models |
|---|---|---|
| `Results` | results.dfy | `Option` and `Result`, used for the exceptions the code can throw |
| `Int32` | int32.dfy | C# `int`: wrap-around `+ - *`, truncating `/` with its two exceptions, and the `(int)` cast of a `double` quotient |
| `Layout` | layout.dfy | row-major index arithmetic (`y*d + x`, `/` and `%`) |
| `Lines` | lines.dfy | `MergeRelatedLines`: the double scan that averages close lines and marks the absorbed ones with (0, −100) |
| `Edges` | edges.dfy | the loop that picks top/bottom by ρ and left/right by x-intercept |
| `Corners` | corners.dfy | the standard form `Ax + By = C` of each edge; Cramer's rule with `int` division for the top-left corner and `double` division for the other three; the longest squared side; `(int)Math.Sqrt`; the destination square |
| `Cells` | cells.dfy | the cell side `⌈length/9⌉`, the copy of each cell into a `d*d` buffer, the ink count, the 1/5 threshold, the 9 × 9 result grid |
| `Training` | training.dfy | the training file's line format (`label,f1,f2,…`), `Convert.ToInt32`, `string.Split`, `To2D`, and the choice between reading `svm.txt` and training a new model |

Throughout, arithmetic that the code does on `int` wraps modulo 2^32, and integer division truncates toward zero. Both are written out in `Int32`, because Dafny's integers are unbounded and its `/` is Euclidean.

The trigonometry is left abstract:
- The border crossings of a line `(ρ, θ)` are function-valued parameters (`Lines.Geometry`).
- The x-intercept `ρ / cos θ` is likewise a function-valued parameter in `Edges`.
- The two endpoints of each edge, computed with trigonometry at MainWindow.xaml.cs:166-211, are inputs to `Corners`.

## Model

| member | source | states |
|---|---|---|
| Lines.Merges | SudokuSolver/MainWindow.xaml.cs:351-409 | the merge condition, read from the original lines: line i is not the marker, line j is not equal to it, ρ differs by less than 20 and θ by less than 10°, and both border crossings of j lie within 64 px of i's |
| Lines.LastPartner | SudokuSolver/MainWindow.xaml.cs:378-415 | the last index below the bound whose line merges with line i, and that no later index does; none exactly when no index below the bound merges |
| Lines.ScanRow | SudokuSolver/MainWindow.xaml.cs:378-417 | after the inner loop, every index that line i merges with holds the marker, index i holds the average with its last partner, and every other index is untouched |
| Lines.RowCompletes | SudokuSolver/MainWindow.xaml.cs:347-418 | running row i moves the reference state from i rows to i+1 rows exactly as the scan writes: markers on i's partners, the average on i, nothing else |
| Lines.MergeRelatedLines | SudokuSolver/MainWindow.xaml.cs:343-421 | the result has one entry per line, and each entry equals the last value the double scan writes at that index |
| Lines.MergedEntryIsOriginalMarkerOrAverage | SudokuSolver/MainWindow.xaml.cs:410-414 | every output entry is the input line, the marker, or the average of the input line with one of its partners |
| Lines.UnchangedIffUnpartnered | SudokuSolver/MainWindow.xaml.cs:382-415 | a live line comes back unchanged if and only if it merges with no line and no line merges with it |
| Lines.AverageMoves | SudokuSolver/MainWindow.xaml.cs:410-411 | the average of two different lines equals neither of them |
| Lines.IdenticalCopiesSurvive | SudokuSolver/MainWindow.xaml.cs:382 | lines with exactly equal (ρ, θ) never merge, so a sequence of identical copies comes back unchanged |
| Lines.IsolatedPairLeavesOneRepresentative | SudokuSolver/MainWindow.xaml.cs:347-418 | two lines that merge with each other and with no other line leave their average at one index and the marker at the other, whatever merges happen elsewhere in the list |
| Edges.StepFrame | SudokuSolver/MainWindow.xaml.cs:122-152 | one iteration: the marker and lines outside both bands change nothing; a horizontal-band line can only lower top's ρ or raise bottom's and touches neither left nor right; a vertical-band line touches neither top nor bottom, only raises the right value and only lowers the left one, and is taken as left only with its own intercept |
| Edges.SelectEdges | SudokuSolver/MainWindow.xaml.cs:115-153 | after the loop the sentinels bound the result: top's ρ at most 1000, bottom's at least −1000, the left value at most 100000, the right value at least 0 |
| Edges.MaxVerticalIntercept | SudokuSolver/MainWindow.xaml.cs:139-144 | the largest x-intercept among vertical-band lines, or 0: at least every such intercept, and either 0 or attained by one of them |
| Edges.TopIsFirstMinimum | SudokuSolver/MainWindow.xaml.cs:115-136 | top has ρ at most 1000 and at most every horizontal-band ρ; it is the sentinel, or the first horizontal-band line reaching that minimum when the minimum is strictly below 1000 |
| Edges.BottomIsFirstMaximum | SudokuSolver/MainWindow.xaml.cs:116-138 | bottom has ρ at least −1000 and at least every horizontal-band ρ; it is the sentinel, or the first line reaching that maximum when the maximum is strictly above −1000 |
| Edges.RightIsFirstMaximum | SudokuSolver/MainWindow.xaml.cs:118-145 | the running right intercept is the maximum vertical-band intercept (or 0); right is the sentinel with 0, or the first line attaining that maximum when it is positive |
| Edges.LeftIsLastMinimumCandidate | SudokuSolver/MainWindow.xaml.cs:117-150 | left is the last line with the smallest x-intercept among vertical-band lines that did not just set a new right record; it stays the sentinel with 100000 only when every such line lies beyond 100000, since a line at exactly 100000 passes the `<=` |
| Edges.TopSentinelExactly | SudokuSolver/MainWindow.xaml.cs:115-136 | top stays the sentinel exactly when every horizontal-band line has ρ of at least 1000: the strict `<` lets no line at 1000 replace it |
| Edges.BottomSentinelExactly | SudokuSolver/MainWindow.xaml.cs:116-138 | bottom stays the sentinel exactly when every horizontal-band line has ρ of at most −1000 |
| Edges.RightSentinelWithoutPositive | SudokuSolver/MainWindow.xaml.cs:118-145 | when no vertical-band line has a positive x-intercept, right stays the sentinel and its value stays 0 |
| Edges.LeftSentinelExactly | SudokuSolver/MainWindow.xaml.cs:117-150 | when some left candidate lies at or below 100000, left is a candidate (the last with the smallest intercept); when none does, left stays the sentinel with 100000 |
| Edges.RecordBeatsRunningRight | SudokuSolver/MainWindow.xaml.cs:139-143 | a line takes the right branch exactly when its intercept exceeds the maximum of the intercepts before it |
| Edges.IgnoredLinesDoNotMatter | SudokuSolver/MainWindow.xaml.cs:120-153 | dropping marker lines and lines outside both angle bands changes none of the four chosen edges |
| Edges.LeftDependsOnOrder | SudokuSolver/MainWindow.xaml.cs:142-151 | as written, two vertical lines with x-intercepts 10 and 500 leave left at the sentinel when read in that order, and set left to the line at 10 when read in the other |
| Edges.StepIntended | SudokuSolver/MainWindow.xaml.cs:140-151 | the step with the right and left tests independent behaves like the written step on every line that is not vertical, and leaves top and bottom alone on a vertical one |
| Edges.IntendedLeftIsMinimum | SudokuSolver/MainWindow.xaml.cs:115-153 | with independent tests, left is the sentinel at 100000 or a vertical-band line whose intercept is at most every vertical-band intercept: the minimum, whatever the order |
| Edges.IntendedLeftIgnoresOrder | SudokuSolver/MainWindow.xaml.cs:142-151 | with independent tests, both orders of the pair above give the line at 10 as left |
| Corners.StandardForm | SudokuSolver/MainWindow.xaml.cs:213-231 | the coefficients A = y2 − y1, B = x1 − x2 and C = A·x1 + B·y1 are stored as `int`s; `DefiningPointsSatisfyEquation` states that both defining points lie on the line |
| Corners.Determinant | SudokuSolver/MainWindow.xaml.cs:233 | the 32-bit determinant A1·B2 − B1·A2 of the two edges is an `int`; `ExactCramer` states it is the exact one when nothing overflows |
| Corners.NumeratorX | SudokuSolver/MainWindow.xaml.cs:235 | the 32-bit numerator B2·C1 − B1·C2 of the x coordinate is an `int`; `ExactCramer` gives its exact value without overflow |
| Corners.NumeratorY | SudokuSolver/MainWindow.xaml.cs:235 | the 32-bit numerator A1·C2 − A2·C1 of the y coordinate is an `int`; `ExactCramer` gives its exact value without overflow |
| Corners.ExactCramer | SudokuSolver/MainWindow.xaml.cs:233-244 | without overflow, the 32-bit determinant and numerators equal the exact ones |
| Corners.DefiningPointsSatisfyEquation | SudokuSolver/MainWindow.xaml.cs:213-231 | both endpoints of an edge satisfy its equation evaluated in 32-bit arithmetic, even when A, B or C wrap around |
| Corners.IntersectByIntDivision | SudokuSolver/MainWindow.xaml.cs:233-235 | division by zero exactly when the determinant is 0; overflow exactly when it is −1 and a numerator is `int.MinValue`; a result exactly in every other case, and then each coordinate is the numerator over the determinant, truncated toward zero |
| Corners.IntersectByDoubleDivision | SudokuSolver/MainWindow.xaml.cs:237-244 | a result exactly when the determinant is non-zero and both truncated quotients fit in an `int`, and then each coordinate is the numerator over the determinant truncated toward zero; otherwise the cast is unspecified |
| Corners.DivisionsAgree | SudokuSolver/MainWindow.xaml.cs:233-244 | whenever the `int` division succeeds, the `double` division gives the same corner |
| Corners.QuotientsAgree | SudokuSolver/MainWindow.xaml.cs:235-239 | `(int)((double)n/d)` equals C# `n / d` whenever the latter does not throw |
| Corners.ParallelEdgesFail | SudokuSolver/MainWindow.xaml.cs:233-244 | parallel edges make the top-left division throw and leave the other corners unspecified |
| Corners.CornerOnBothEdges | SudokuSolver/MainWindow.xaml.cs:233-235 | without overflow and with an exact quotient, the top-left corner is that point and lies on both edges |
| Corners.DoubleCornerExact | SudokuSolver/MainWindow.xaml.cs:237-244 | likewise for the corners computed by `double` division |
| Corners.LocateCorners | SudokuSolver/MainWindow.xaml.cs:213-244 | all four corners: division by zero exactly when the 32-bit determinant of the left and top edges is 0, overflow exactly when the top-left division overflows, a result exactly when the top-left division succeeds and the other three quotients fit in an `int`; then every corner is its two edges' Cramer solution truncated toward zero |
| Corners.SquareCornersAreExact | SudokuSolver/MainWindow.xaml.cs:213-244 | edges along a 100 px square give exactly the square's corners |
| Corners.SquaredSideExact | SudokuSolver/MainWindow.xaml.cs:251-260 | corners less than 2^15 apart on each axis give the exact squared distance, with no wrap-around |
| Corners.SquaredSide | SudokuSolver/MainWindow.xaml.cs:251-260 | the squared distance of two corners, computed in 32-bit arithmetic, is an `int`; `SquaredSideExact` gives its exact value for nearby corners |
| Corners.LongestSquaredSide | SudokuSolver/MainWindow.xaml.cs:251-262 | the running maximum is one of the four squared sides and at least each of them |
| Corners.FloorSqrt | SudokuSolver/MainWindow.xaml.cs:264 | r² ≤ n < (r+1)² |
| Corners.FloorSqrtUnique | SudokuSolver/MainWindow.xaml.cs:264 | any r with r² ≤ n < (r+1)² is the root computed |
| Corners.SideLength | SudokuSolver/MainWindow.xaml.cs:264 | a negative (wrapped) square has no specified root; otherwise the root rounded down |
| Corners.Destination | SudokuSolver/MainWindow.xaml.cs:274-277 | the destination runs from (0, 0) to (length−1, length−1) |
| Corners.DestinationIsSquare | SudokuSolver/MainWindow.xaml.cs:274-277 | the four destination sides have squared length (length−1)², and consecutive sides are axis-aligned at right angles |
| Corners.PlanRectification | SudokuSolver/MainWindow.xaml.cs:251-277 | fails exactly when the longest squared side wrapped negative; otherwise the side is its floor root, the source corners are the located ones, and the destination is the square of that side |
| Int32.Wrap | SudokuSolver/MainWindow.xaml.cs:213-233 | the stored value is always an `int` and equals the exact result when that fits |
| Int32.WrapAdd | SudokuSolver/MainWindow.xaml.cs:216 | wrapping the operands of an addition does not change the wrapped sum |
| Int32.WrapSub | SudokuSolver/MainWindow.xaml.cs:213-214 | likewise for subtraction |
| Int32.WrapMul | SudokuSolver/MainWindow.xaml.cs:216 | likewise for multiplication |
| Int32.TruncDiv | SudokuSolver/MainWindow.xaml.cs:235 | the remainder is smaller than the divisor and has the sign of the dividend |
| Int32.Div | SudokuSolver/MainWindow.xaml.cs:235 | C# `int /`: throws on a zero divisor, throws on `int.MinValue / -1`, and returns a result in every other case; the result leaves a remainder smaller than the divisor with the sign of the dividend, which is truncation toward zero; an exact quotient is returned as is |
| Int32.TruncDivUnique | SudokuSolver/MainWindow.xaml.cs:235 | any quotient leaving a remainder smaller than the divisor with the dividend's sign is the truncated one, so the two conditions pin C#'s result |
| Int32.ExactQuotient | SudokuSolver/MainWindow.xaml.cs:235 | when the divisor divides the dividend, truncation gives the exact quotient |
| Int32.Truncate | SudokuSolver/MainWindow.xaml.cs:239 | the `(int)` cast rounds toward zero: within one below a non-negative value, within one above a negative one |
| Int32.CastQuotient | SudokuSolver/MainWindow.xaml.cs:239 | a result exactly when the divisor is non-zero and the truncated quotient fits in an `int`, and then it is that quotient; a zero divisor or an out-of-range quotient has no specified value |
| Int32.CastQuotientMatchesDiv | SudokuSolver/MainWindow.xaml.cs:235-239 | for an in-range quotient the `double` route and C# `int /` agree |
| Int32.TruncateMatches | SudokuSolver/MainWindow.xaml.cs:239 | truncating the real quotient gives the truncating integer quotient |
| Cells.CellSide | SudokuSolver/MainWindow.xaml.cs:288 | the smallest side for which nine cells cover the image |
| Cells.CellContents | SudokuSolver/MainWindow.xaml.cs:299-307 | the buffer of a cell holds d·d pixels; `PixelAppearsInItsCell` and `OutsideCellIsBlank` state which |
| Cells.PixelHasCell | SudokuSolver/MainWindow.xaml.cs:288-305 | every pixel row (or column) lies in cell r / d, which is one of the nine |
| Cells.PixelCellUnique | SudokuSolver/MainWindow.xaml.cs:288-305 | and in no other cell |
| Cells.PixelAppearsInItsCell | SudokuSolver/MainWindow.xaml.cs:301-305 | every image pixel is copied into the cell that covers it, at position (r mod d)·d + c mod d |
| Cells.CopyCell | SudokuSolver/MainWindow.xaml.cs:299-307 | the bounded copy loops fill the buffer with the cell's pixels, with background past the image's edge |
| Cells.Foreground | SudokuSolver/MainWindow.xaml.cs:315-316 | the ink count is at most the pixel count, 0 exactly for a blank cell, full exactly for a solid one |
| Cells.ForegroundAppend | SudokuSolver/MainWindow.xaml.cs:315-316 | counting ink is additive over concatenation |
| Cells.HasInk | SudokuSolver/MainWindow.xaml.cs:315-317 | the classification test, `area > rows*cols/5` on the cell's ink count; `InkThreshold` states what it means |
| Cells.InkThreshold | SudokuSolver/MainWindow.xaml.cs:317 | `area > rows*cols/5` in integer arithmetic holds exactly when more than a fifth of the pixels are ink |
| Cells.OutsideCellIsBlank | SudokuSolver/MainWindow.xaml.cs:301-317 | a cell wholly outside the image has no ink and is never classified |
| Cells.ReadGrid | SudokuSolver/MainWindow.xaml.cs:293-322 | the nested loops build the 9 × 9 grid cell by cell |
| Cells.Grid | SudokuSolver/MainWindow.xaml.cs:293-322 | the 9 × 9 result grid when the column loop starts at a given column; `FullGridReadsEveryCell` and `SkippedColumnsStayEmpty` state its entries |
| Cells.FullGridReadsEveryCell | SudokuSolver/MainWindow.xaml.cs:295-320 | read from column 0, an entry holds a digit exactly when its cell holds ink, and the digit is the classifier's answer for that cell |
| Cells.SkippedColumnsStayEmpty | SudokuSolver/MainWindow.xaml.cs:297 | as written, columns 0 to 3 stay null whatever the image holds |
| Cells.TopLeftInkIsDropped | SudokuSolver/MainWindow.xaml.cs:297 | a concrete image whose top-left cell holds ink, reported empty as written and classified when read from column 0 |
| Training.IndexOf | SudokuSolver/Helpers/DigitRecogniser.cs:34 | the first position of the character, or −1 exactly when it does not occur |
| Training.Split | SudokuSolver/Helpers/DigitRecogniser.cs:37 | one more field than separators, no field holds a separator, and joining the fields gives back the text |
| Training.SplitJoin | SudokuSolver/Helpers/DigitRecogniser.cs:37 | splitting undoes joining fields that contain no separator |
| Training.ParseInt32 | SudokuSolver/Helpers/DigitRecogniser.cs:35 | a parsed label is an `int`, and only text containing a digit parses |
| Training.LeadingWhiteIgnored | SudokuSolver/Helpers/DigitRecogniser.cs:35 | white space before the number does not change the result |
| Training.TrailingWhiteIgnored | SudokuSolver/Helpers/DigitRecogniser.cs:35 | nor does white space after it |
| Training.ShapeDecidesFormat | SudokuSolver/Helpers/DigitRecogniser.cs:35 | text fails with a format error exactly when it is not white space, an optional `+` or `-`, one or more decimal digits and white space, in that order |
| Training.ParseFormatted | SudokuSolver/Helpers/DigitRecogniser.cs:35 | every `int`, written in decimal, parses back to itself |
| Training.FormattedOverflows | SudokuSolver/Helpers/DigitRecogniser.cs:35 | a decimal number outside the `int` range is an overflow, not a format error |
| Training.PlusSignAccepted | SudokuSolver/Helpers/DigitRecogniser.cs:35 | a leading `+` is accepted and does not change the value |
| Training.LeadingZeroIgnored | SudokuSolver/Helpers/DigitRecogniser.cs:35 | a leading zero does not change the result, so `007` reads as 7 |
| Training.EmptyLabelIsFormatError | SudokuSolver/Helpers/DigitRecogniser.cs:35 | an empty label, or a lone sign, is a format error |
| Training.ParseRow | SudokuSolver/Helpers/DigitRecogniser.cs:34-37 | a line without a comma fails exactly as `Substring(0, -1)` does; otherwise the label is what `Convert.ToInt32` makes of the text before the first comma, its format and overflow errors failing the line; a parsed line has one feature per remaining comma, none holding a comma, and the features joined with commas are the text after the first comma |
| Training.RowRoundTrip | SudokuSolver/Helpers/DigitRecogniser.cs:34-37 | a sample written as `label,f1,…,fn` parses back to itself |
| Training.LeadingCommaIsFormatError | SudokuSolver/Helpers/DigitRecogniser.cs:34-35 | a line starting with a comma has an empty label and fails to parse |
| Training.ReadTrainingFile | SudokuSolver/Helpers/DigitRecogniser.cs:32-41 | succeeds exactly when every line parses, pairing each line's label and features by index; otherwise fails with the first bad line's error |
| Training.To2D | SudokuSolver/Helpers/DigitRecogniser.cs:68-86 | succeeds exactly when there is a row and all rows have the same length; then element (i, j) of the matrix is element j of row i |
| Training.Initialise | SudokuSolver/Helpers/DigitRecogniser.cs:28-65 | a bad line fails the load; non-rectangular features fail it after all lines parse; otherwise labels pair with lines, the training matrix has one row per line and holds each line's feature fields in order, and the model is read from `svm.txt` exactly when that file exists, else trained with the fixed parameters and saved there |

## Left out

- The WPF window, drawing, image loading, blurring, thresholding, flood fill and the Hough transform are not modelled. They are OpenCV and UI calls, and the model starts from their output.
- Converting a line from (ρ, θ) to its two border points (MainWindow.xaml.cs:166-211, and the same formulas inside `MergeRelatedLines`) is left out. These are floating-point trigonometry, so they enter the model as function-valued parameters or as endpoint inputs.
- Float precision is not modelled: comparisons in `MergeRelatedLines` and the edge loop are exact over the reals. Single-precision rounding of ρ and θ is ignored. The 64 × 64 test is done on exact squared distances.
- Corners.IntersectByDoubleDivision: the `double` quotient is exact. A `double` holds every `int` exactly, and its correctly rounded division never crosses an integer boundary, so truncation agrees with the exact quotient. That argument is not carried out in Dafny.
- Corners.SideLength: `Math.Sqrt` is modelled as the exact square root rounded down. For `int` inputs the correctly rounded square root never crosses an integer, but that is argued, not proved.
- The perspective warp, `AdaptiveThreshold` and `Moments` are not modelled. The model takes the rectified, thresholded square image as input, and the zeroth moment of a binary image is its non-zero pixel count.
- Corners.SideLength: a negative `maxLength` can only come from a wrapped square. `Math.Sqrt` of it is NaN, and the `(int)` cast of NaN at MainWindow.xaml.cs:264 yields an unspecified `int` without raising anything. The model returns `Err(UnspecifiedConversion)` instead and does not choose that value.
- Cells: the image is square (`new Size(maxLength, maxLength)`), so `Cols` and `Rows` at lines 301 and 303 are both its side. The model has one `length`.
- Cells: the code compares a row index with `Cols` and a column index with `Rows`. This is harmless only because the image is square.
- `DigitRecogniser.Classify`, SVM training, prediction, reading and saving are not modelled. They are OpenCV calls. The classifier is a function parameter of `Cells.ReadGrid`, and the model choice is recorded as a `ModelSource` value.
- `float.Parse` of the feature values is not modelled: features stay as text. Training.To2D is generic, so it applies to the parsed matrix unchanged.
- Training.ReadTrainingFile: a line whose feature text is not a list of numbers (`"5,"` or `"5,a"`) makes `float.Parse` at DigitRecogniser.cs:37 throw `FormatException`. The model keeps features as text, so it accepts such a line and returns `Ok` with the unparsed fields.
- Training.IndexOf: the comma search is ordinal. `line.IndexOf(",")` at DigitRecogniser.cs:34 is culture-sensitive, and characters a culture ignores in comparisons are not modelled.
- File I/O is not modelled. The training file is given as its sequence of lines, and the existence of `svm.txt` as a boolean.
- Training.ParseInt32: culture-specific signs, and the trailing NUL characters that `Int32.Parse` also accepts, are not modelled.
- Facts about the code that a reader might not expect, all followed by the model:
  - Merge decisions read the original lines (line 349 and line 380), not the values already merged.
  - The side length is the square root rounded down: `(int)Math.Sqrt` at line 264.
  - A cell with exactly one fifth ink is empty: the test at line 317 is a strict `>`.
  - Parallel edges make the top-left division throw `DivideByZeroException` (line 235). There is no dedicated error.
- Corners.LocateCorners: an `(int)` cast of an infinite, NaN or out-of-range `double` at lines 239-244 raises nothing in C#; the program carries on with an unspecified `int`. The model does not choose that value. It returns `Err(UnspecifiedConversion)` and treats the corner computation as aborted, so what lines 251-283 do with such a corner is not modelled.
- The result display (`DisplayResult`) and the message boxes are not modelled.

## Findings

| source | as written | input that shows it | evidently intended | confidence | as-written member | corrected member |
|---|---|---|---|---|---|---|
| SudokuSolver/MainWindow.xaml.cs:142-151 | the left test is an `else if` after the right test, so a line that sets a new right record is never considered for left; the first vertical line with a positive x-intercept always sets one, because the running right value starts at 0 | two vertical lines with x-intercepts 10 and 500: read in that order, left stays at the sentinel; read as 500 then 10, left is the line at 10 | two independent tests, as for top and bottom at lines 136-138, so that left is the vertical line with the smallest intercept whatever the order | not executed; likely | Edges.LeftDependsOnOrder | Edges.IntendedLeftIsMinimum |
| SudokuSolver/MainWindow.xaml.cs:297 | the column loop starts at `i = 4`, so columns 0 to 3 of the result grid are never read and stay null | a 9 × 9 all-ink image: cell (0, 0) holds ink, yet the grid reports it empty | the loop starts at `i = 0`, like the row loop on line 295, so that all 81 cells are read | not executed | Cells.TopLeftInkIsDropped | Cells.FullGridReadsEveryCell |

=== FILE: cells.dfy ===
/** Cutting the rectified, binarised square into a 9 by 9 grid of cells,
    deciding which cells hold ink, and handing those to the digit
    classifier. */
module Cells {
  import opened Results
  import opened Layout

  type Byte = x: int | 0 <= x < 256

  /** A square single-channel image, `length` pixels on each side, indexed
      row first. */
  datatype Image = Image(length: nat, pixels: seq<seq<Byte>>)

  predicate WellFormed(img: Image) {
    |img.pixels| == img.length && forall r :: 0 <= r < |img.pixels| ==> |img.pixels[r]| == img.length
  }

  /** `(int)Math.Ceiling((double)length / 9)`: the least side for which nine
      cells cover the square. */
  function CellSide(length: nat): (d: nat)
    ensures 9 * d >= length
    ensures d == 0 || 9 * (d - 1) < length
  {
    (length + 8) / 9
  }

  /** Pixel (y, x) of cell (j, i): the pixel of the image at row `j*d + y`
      and column `i*d + x`, or background where the cell runs past the
      image. */
  function CellPixel(img: Image, d: nat, j: nat, i: nat, y: nat, x: nat): Byte
    requires WellFormed(img)
  {
    if j * d + y < img.length && i * d + x < img.length then img.pixels[j * d + y][i * d + x] else 0
  }

  /** The `d*d` buffer of cell (j, i), row by row. */
  function CellContents(img: Image, d: nat, j: nat, i: nat): (cell: seq<Byte>)
    requires WellFormed(img)
    ensures |cell| == d * d
  {
    seq(d * d, n requires 0 <= n < d * d => CellPixel(img, d, j, i, n / d, n % d))
  }

  /** The buffer holds the cell's pixels in every row before `y` and in
      row `y` before column `x`, and zeroes elsewhere. */
  ghost predicate Filled(buf: seq<Byte>, cell: seq<Byte>, d: nat, y: nat, x: nat)
    requires |buf| == |cell| == d * d
  {
    forall n :: 0 <= n < d * d ==>
      buf[n] == (if n / d < y || (n / d == y && n % d < x) then cell[n] else 0)
  }

  lemma FilledStart(buf: seq<Byte>, cell: seq<Byte>, d: nat)
    requires |buf| == |cell| == d * d
    requires forall n :: 0 <= n < d * d ==> buf[n] == 0
    ensures Filled(buf, cell, d, 0, 0)
  {
    forall n | 0 <= n < d * d
      ensures n / d >= 0 && n % d >= 0
    {
      DivMod(n, d);
    }
  }

  /** Writing pixel (y, x) extends the filled region by one position. */
  lemma FilledStep(buf: seq<Byte>, cell: seq<Byte>, d: nat, y: nat, x: nat)
    requires |buf| == |cell| == d * d && y < d && x < d
    requires Filled(buf, cell, d, y, x)
    ensures y * d + x < d * d
    ensures Filled(buf[y * d + x := cell[y * d + x]], cell, d, y, x + 1)
  {
    RowMajor(d, d, y, x);
    var w := y * d + x;
    forall n | 0 <= n < d * d && n != w && n / d == y
      ensures n % d != x
    {
      DivMod(n, d);
    }
  }

  /** A row whose remaining positions are blank in the cell is complete. */
  lemma FilledRow(buf: seq<Byte>, cell: seq<Byte>, d: nat, y: nat, x: nat)
    requires |buf| == |cell| == d * d
    requires Filled(buf, cell, d, y, x)
    requires forall n :: 0 <= n < d * d && n / d == y && x <= n % d ==> cell[n] == 0
    ensures Filled(buf, cell, d, y + 1, 0)
  {
  }

  /** Once every remaining row is blank in the cell, the buffer is the cell. */
  lemma FilledAll(buf: seq<Byte>, cell: seq<Byte>, d: nat, y: nat)
    requires |buf| == |cell| == d * d
    requires Filled(buf, cell, d, y, 0)
    requires forall n :: 0 <= n < d * d && y <= n / d ==> cell[n] == 0
    ensures buf == cell
  {
    forall n | 0 <= n < d * d
      ensures buf[n] == cell[n]
    {
      DivMod(n, d);
    }
  }

  /** Past the right edge of the image, or past the cell's last column, the
      rest of a row is background. */
  lemma RowTail(img: Image, d: nat, j: nat, i: nat, y: nat, x: nat)
    requires WellFormed(img)
    requires x == d || i * d + x >= img.length
    ensures forall n :: 0 <= n < d * d && n / d == y && x <= n % d ==> CellContents(img, d, j, i)[n] == 0
  {
    forall n | 0 <= n < d * d && n / d == y && x <= n % d
      ensures CellContents(img, d, j, i)[n] == 0
    {
      DivMod(n, d);
    }
  }

  /** Likewise below the image, or past the cell's last row. */
  lemma RowsTail(img: Image, d: nat, j: nat, i: nat, y: nat)
    requires WellFormed(img)
    requires y == d || j * d + y >= img.length
    ensures forall n :: 0 <= n < d * d && y <= n / d ==> CellContents(img, d, j, i)[n] == 0
  {
    forall n | 0 <= n < d * d && y <= n / d
      ensures CellContents(img, d, j, i)[n] == 0
    {
      DivMod(n, d);
      if y == d {
        MulMono(d, n / d, d);
      }
    }
  }

  /** The copy loops of the code: rows of the cell while they lie inside
      the image, and in each row the columns while they lie inside; the
      rest of the fresh buffer keeps its zeroes. */
  method CopyCell(img: Image, d: nat, j: nat, i: nat) returns (buf: seq<Byte>)
    requires WellFormed(img)
    ensures buf == CellContents(img, d, j, i)
  {
    ghost var cell := CellContents(img, d, j, i);
    buf := seq(d * d, _ => 0);
    FilledStart(buf, cell, d);
    var y := 0;
    while y < d && j * d + y < img.length
      invariant 0 <= y <= d && |buf| == d * d
      invariant Filled(buf, cell, d, y, 0)
    {
      var x := 0;
      while x < d && i * d + x < img.length
        invariant 0 <= x <= d && |buf| == d * d
        invariant Filled(buf, cell, d, y, x)
      {
        FilledStep(buf, cell, d, y, x);
        RowMajor(d, d, y, x);
        buf := buf[y * d + x := img.pixels[j * d + y][i * d + x]];
        x := x + 1;
      }
      RowTail(img, d, j, i, y, x);
      FilledRow(buf, cell, d, y, x);
      y := y + 1;
    }
    RowsTail(img, d, j, i, y);
    FilledAll(buf, cell, d, y);
  }

  /** The number of non-zero pixels: the zeroth moment of a binary image. */
  function Foreground(cell: seq<Byte>): (count: nat)
    ensures count <= |cell|
    ensures count == 0 <==> forall k :: 0 <= k < |cell| ==> cell[k] == 0
    ensures count == |cell| <==> forall k :: 0 <= k < |cell| ==> cell[k] != 0
  {
    if |cell| == 0 then 0
    else
      var last := |cell| - 1;
      var front := cell[..last];
      assert forall k :: 0 <= k < last ==> front[k] == cell[k];
      Foreground(front) + if cell[last] != 0 then 1 else 0
  }

  /** Counting is additive over concatenation. */
  lemma {:induction false} ForegroundAppend(a: seq<Byte>, b: seq<Byte>)
    ensures Foreground(a + b) == Foreground(a) + Foreground(b)
    decreases |b|
  {
    if |b| > 0 {
      var last := |b| - 1;
      assert (a + b)[..|a + b| - 1] == a + b[..last];
      ForegroundAppend(a, b[..last]);
    } else {
      assert a + b == a;
    }
  }

  /** The code classifies a cell when `area > rows*cols/5` in integer
      arithmetic: exactly when more than a fifth of its pixels are ink. A
      cell with exactly a fifth counts as empty. */
  predicate HasInk(cell: seq<Byte>, d: nat) {
    Foreground(cell) > d * d / 5
  }

  lemma InkThreshold(cell: seq<Byte>, d: nat)
    ensures HasInk(cell, d) <==> 5 * Foreground(cell) > d * d
  {
  }

  /** A cell lying wholly past the bottom or the right edge of the image is
      blank, so it is never classified. */
  lemma OutsideCellIsBlank(img: Image, d: nat, j: nat, i: nat)
    requires WellFormed(img)
    requires j * d >= img.length || i * d >= img.length
    ensures Foreground(CellContents(img, d, j, i)) == 0
    ensures !HasInk(CellContents(img, d, j, i), d)
  {
    var cell := CellContents(img, d, j, i);
    forall k | 0 <= k < |cell|
      ensures cell[k] == 0
    {
    }
  }

  /** Nine cells of side `CellSide(length)` cover the image: every pixel row
      (and likewise every column) falls in cell `r / d`, one of the nine,
      and in no other. */
  lemma PixelHasCell(length: nat, r: nat)
    requires r < length
    ensures CellSide(length) > 0
    ensures r / CellSide(length) < 9
    ensures (r / CellSide(length)) * CellSide(length) <= r < (r / CellSide(length) + 1) * CellSide(length)
  {
    var d := CellSide(length);
    DivMod(r, d);
    MulMono(9, r / d, d);
    assert (r / d + 1) * d == (r / d) * d + d;
  }

  lemma PixelCellUnique(d: nat, r: nat, j: nat)
    requires j * d <= r < (j + 1) * d
    ensures j == r / d
  {
    DivModUnique(r, d, j, r - j * d);
  }

  /** Pixel (r, c) is entry `(r % d)*d + c % d` of cell (r / d, c / d). */
  predicate InItsCell(img: Image, d: nat, r: nat, c: nat)
    requires WellFormed(img) && 0 < d && r < img.length && c < img.length
  {
    var cell := CellContents(img, d, r / d, c / d);
    var k := (r % d) * d + c % d;
    k < |cell| && cell[k] == img.pixels[r][c]
  }

  /** Nothing is lost by the slicing: every pixel of the image appears in
      the cell that covers it. */
  lemma PixelAppearsInItsCell(img: Image, r: nat, c: nat)
    requires WellFormed(img) && r < img.length && c < img.length
    ensures InItsCell(img, CellSide(img.length), r, c)
  {
    var d := CellSide(img.length);
    PixelHasCell(img.length, r);
    PixelHasCell(img.length, c);
    DivMod(r, d);
    DivMod(c, d);
    RowMajor(d, d, r % d, c % d);
  }

  /** What the code stores for cell (j, i): the classifier's answer when
      the cell holds ink, nothing otherwise. */
  function CellReading(img: Image, d: nat, classify: seq<Byte> -> int, j: nat, i: nat): Option<int>
    requires WellFormed(img)
  {
    var cell := CellContents(img, d, j, i);
    if HasInk(cell, d) then Some(classify(cell)) else None
  }

  /** The 9 by 9 result grid when the column loop starts at `firstColumn`;
      cells left of it keep the array's default, null. */
  function Grid(img: Image, classify: seq<Byte> -> int, firstColumn: nat): seq<seq<Option<int>>>
    requires WellFormed(img)
  {
    var d := CellSide(img.length);
    seq(9, j requires 0 <= j < 9 => seq(9, i requires 0 <= i < 9 => if i >= firstColumn then CellReading(img, d, classify, j, i) else None))
  }

  /** The column loop as written starts at 4. */
  const FirstColumnAsWritten: nat := 4

  /** The nested row and column loops over the grid. */
  method ReadGrid(img: Image, classify: seq<Byte> -> int, firstColumn: nat) returns (grid: seq<seq<Option<int>>>)
    requires WellFormed(img)
    ensures grid == Grid(img, classify, firstColumn)
  {
    var d := CellSide(img.length);
    ghost var spec := Grid(img, classify, firstColumn);
    grid := seq(9, _ => seq(9, _ => None));
    var j := 0;
    while j < 9
      invariant 0 <= j <= 9 && |grid| == 9
      invariant forall r :: 0 <= r < 9 ==> |grid[r]| == 9
      invariant forall r :: 0 <= r < j ==> grid[r] == spec[r]
      invariant forall r :: j <= r < 9 ==> grid[r] == seq(9, _ => None)
    {
      var row := seq(9, _ => None);
      var i := firstColumn;
      while i < 9
        invariant firstColumn <= i
        invariant |row| == 9
        invariant forall c :: 0 <= c < 9 ==> row[c] == (if firstColumn <= c < i then spec[j][c] else None)
      {
        var cell := CopyCell(img, d, j, i);
        var area := Foreground(cell);
        if area > d * d / 5 {
          row := row[i := Some(classify(cell))];
        }
        i := i + 1;
      }
      grid := grid[j := row];
      j := j + 1;
    }
  }

  /** Every column of a grid read from column 0 is populated: an entry holds
      a digit exactly when its cell holds ink. */
  lemma FullGridReadsEveryCell(img: Image, classify: seq<Byte> -> int, j: nat, i: nat)
    requires WellFormed(img) && j < 9 && i < 9
    ensures
      var d := CellSide(img.length);
      var cell := CellContents(img, d, j, i);
      && (Grid(img, classify, 0)[j][i].Some? <==> HasInk(cell, d))
      && (Grid(img, classify, 0)[j][i].Some? ==> Grid(img, classify, 0)[j][i].value == classify(cell))
  {
  }

  /** As written, columns 0 to 3 are never read, whatever they hold. */
  lemma SkippedColumnsStayEmpty(img: Image, classify: seq<Byte> -> int, j: nat, i: nat)
    requires WellFormed(img) && j < 9 && i < FirstColumnAsWritten
    ensures Grid(img, classify, FirstColumnAsWritten)[j][i] == None
  {
  }

  /** An all-ink 9 by 9 image: each cell is one inked pixel. */
  function SolidImage(): (img: Image)
    ensures WellFormed(img)
  {
    Image(9, seq(9, _ => seq(9, _ => 255)))
  }

  /** The cell in the top-left corner of the solid image holds ink, yet the
      grid as written reports it empty, while the grid read from column 0
      reports the classifier's digit. */
  lemma TopLeftInkIsDropped(classify: seq<Byte> -> int)
    ensures HasInk(CellContents(SolidImage(), 1, 0, 0), 1)
    ensures Grid(SolidImage(), classify, FirstColumnAsWritten)[0][0] == None
    ensures Grid(SolidImage(), classify, 0)[0][0] == Some(classify([255]))
  {
    var img := SolidImage();
    assert CellSide(9) == 1;
    assert CellContents(img, 1, 0, 0) == [255];
  }
}

=== FILE: corners.dfy ===
/** The corner geometry of the grid locator: each boundary line, drawn
    through two integer pixel points, becomes a standard-form equation
    `a*x + b*y == c`; neighbouring edges are intersected with Cramer's
    rule; the longest side of the resulting quadrilateral fixes the size of
    the rectified square. All of it is C# `int` arithmetic, so every sum,
    difference and product wraps to 32 bits. */
module Corners {
  import opened Results
  import opened Int32

  datatype Point = Point(x: int, y: int)

  /** The two points through which a boundary line is drawn. */
  datatype EdgePoints = EdgePoints(p1: Point, p2: Point)

  /** The line `a*x + b*y == c`. */
  datatype LineEq = LineEq(a: int, b: int, c: int)

  /** The corners in the order the rectification uses them. */
  datatype Quad = Quad(topLeft: Point, topRight: Point, bottomRight: Point, bottomLeft: Point)

  predicate PointInRange(p: Point) {
    InRange(p.x) && InRange(p.y)
  }

  predicate EquationInRange(l: LineEq) {
    InRange(l.a) && InRange(l.b) && InRange(l.c)
  }

  /** `p` satisfies the equation when both sides are evaluated in 32-bit arithmetic. */
  predicate Satisfies32(l: LineEq, p: Point) {
    Add(Mul(l.a, p.x), Mul(l.b, p.y)) == l.c
  }

  /** `p` lies on the line in exact arithmetic. */
  predicate OnLine(l: LineEq, p: Point) {
    l.a * p.x + l.b * p.y == l.c
  }

  /** A = y2 - y1, B = x1 - x2, C = A*x1 + B*y1. */
  function StandardForm(e: EdgePoints): (l: LineEq)
    ensures EquationInRange(l)
  {
    var a := Sub(e.p2.y, e.p1.y);
    var b := Sub(e.p1.x, e.p2.x);
    LineEq(a, b, Add(Mul(a, e.p1.x), Mul(b, e.p1.y)))
  }

  /** The equation passes through both of the points that define it, even
      when its coefficients wrap: both sides reduce to `x1*y2 - x2*y1`
      modulo 2^32. */
  lemma DefiningPointsSatisfyEquation(e: EdgePoints)
    requires PointInRange(e.p1) && PointInRange(e.p2)
    ensures Satisfies32(StandardForm(e), e.p1)
    ensures Satisfies32(StandardForm(e), e.p2)
  {
    var x1, y1, x2, y2 := e.p1.x, e.p1.y, e.p2.x, e.p2.y;
    var l := StandardForm(e);
    var exact1, exact2 := (y2 - y1) * x1 + (x1 - x2) * y1, (y2 - y1) * x2 + (x1 - x2) * y2;
    WrappedCombination(y2 - y1, x1 - x2, x1, y1, l.a, l.b, exact1);
    WrappedCombination(y2 - y1, x1 - x2, x2, y2, l.a, l.b, exact2);
    CrossTerms(x1, y1, x2, y2, exact1, exact2);
  }

  /** Evaluating `a*x + b*y` in 32 bits, from wrapped coefficients, wraps
      the exact value. */
  lemma WrappedCombination(a: int, b: int, x: int, y: int, la: int, lb: int, exact: int)
    requires InRange(x) && InRange(y) && la == Wrap(a) && lb == Wrap(b)
    requires exact == a * x + b * y
    ensures Add(Mul(la, x), Mul(lb, y)) == Wrap(exact)
  {
    WrapMul(a, x);
    WrapMul(b, y);
    WrapAdd(a * x, b * y);
  }

  lemma CrossTerms(x1: int, y1: int, x2: int, y2: int, exact1: int, exact2: int)
    requires exact1 == (y2 - y1) * x1 + (x1 - x2) * y1
    requires exact2 == (y2 - y1) * x2 + (x1 - x2) * y2
    ensures exact1 == exact2
  {
  }

  /** The determinant and the two numerators of Cramer's rule for the
      system formed by `l1` (a vertical edge) and `l2` (a horizontal
      edge), in the operand order the code uses. */
  function Determinant(l1: LineEq, l2: LineEq): (d: int)
    ensures InRange(d)
  {
    Sub(Mul(l1.a, l2.b), Mul(l1.b, l2.a))
  }

  function NumeratorX(l1: LineEq, l2: LineEq): (n: int)
    ensures InRange(n)
  {
    Sub(Mul(l2.b, l1.c), Mul(l1.b, l2.c))
  }

  function NumeratorY(l1: LineEq, l2: LineEq): (n: int)
    ensures InRange(n)
  {
    Sub(Mul(l1.a, l2.c), Mul(l2.a, l1.c))
  }

  /** `p` is the Cramer solution, each coordinate truncated toward zero. */
  predicate TruncatedSolution(l1: LineEq, l2: LineEq, p: Point) {
    var d := Determinant(l1, l2);
    d != 0
    && p.x == TruncDiv(NumeratorX(l1, l2), d)
    && p.y == TruncDiv(NumeratorY(l1, l2), d)
  }

  /** Neither integer division throws: the determinant is non-zero and is
      not -1 against a numerator of int.MinValue. */
  predicate IntSolvable(l1: LineEq, l2: LineEq) {
    var d := Determinant(l1, l2);
    d != 0 && !(d == -1 && (NumeratorX(l1, l2) == MinValue || NumeratorY(l1, l2) == MinValue))
  }

  /** Both double quotients are finite and truncate to an int. */
  predicate CastSolvable(l1: LineEq, l2: LineEq) {
    var d := Determinant(l1, l2);
    d != 0 && InRange(TruncDiv(NumeratorX(l1, l2), d)) && InRange(TruncDiv(NumeratorY(l1, l2), d))
  }

  /** The top-left corner: integer division, x before y, so a zero
      determinant throws `DivideByZeroException` and `int.MinValue / -1`
      throws `OverflowException`. */
  function IntersectByIntDivision(l1: LineEq, l2: LineEq): (r: Result<Point, ArithError>)
    ensures r == Err(DivideByZero) <==> Determinant(l1, l2) == 0
    ensures r == Err(Overflow) <==>
      Determinant(l1, l2) == -1 && (NumeratorX(l1, l2) == MinValue || NumeratorY(l1, l2) == MinValue)
    ensures r.Ok? <==> IntSolvable(l1, l2)
    ensures r.Ok? ==> TruncatedSolution(l1, l2, r.value)
  {
    var d := Determinant(l1, l2);
    match Div(NumeratorX(l1, l2), d)
    case Err(e) => Err(e)
    case Ok(x) =>
      match Div(NumeratorY(l1, l2), d)
      case Err(e) => Err(e)
      case Ok(y) => Ok(Point(x, y))
  }

  /** The other three corners: the determinant is converted to a double,
      each numerator is divided by it and the quotient is cast back. */
  function IntersectByDoubleDivision(l1: LineEq, l2: LineEq): (r: Result<Point, ArithError>)
    ensures Determinant(l1, l2) == 0 ==> r == Err(UnspecifiedConversion)
    ensures r.Err? ==> r.error == UnspecifiedConversion
    ensures r.Ok? <==> CastSolvable(l1, l2)
    ensures r.Ok? ==> TruncatedSolution(l1, l2, r.value) && PointInRange(r.value)
  {
    var d := Determinant(l1, l2);
    match CastQuotient(NumeratorX(l1, l2), d)
    case Err(e) => Err(e)
    case Ok(x) =>
      match CastQuotient(NumeratorY(l1, l2), d)
      case Err(e) => Err(e)
      case Ok(y) => Ok(Point(x, y))
  }

  /** Whenever the integer solve succeeds, the double solve yields the
      same corner. */
  lemma DivisionsAgree(l1: LineEq, l2: LineEq)
    requires IntersectByIntDivision(l1, l2).Ok?
    ensures IntersectByDoubleDivision(l1, l2) == IntersectByIntDivision(l1, l2)
  {
    var d, nx, ny := Determinant(l1, l2), NumeratorX(l1, l2), NumeratorY(l1, l2);
    assert Div(nx, d).Ok? && Div(ny, d).Ok?;
    QuotientsAgree(nx, d);
    QuotientsAgree(ny, d);
  }

  /** Dividing two ints as doubles and casting back agrees with integer
      division wherever the latter does not throw. */
  lemma QuotientsAgree(n: int, d: int)
    requires InRange(n) && InRange(d) && Div(n, d).Ok?
    ensures CastQuotient(n, d) == Div(n, d)
  {
    TruncDivInRange(n, d);
    CastQuotientMatchesDiv(n, d);
  }

  /** The 32-bit products agree with the exact ones. */
  predicate NoOverflow(l1: LineEq, l2: LineEq) {
    InRange(l1.a * l2.b) && InRange(l1.b * l2.a) && InRange(l1.a * l2.b - l1.b * l2.a)
    && InRange(l2.b * l1.c) && InRange(l1.b * l2.c) && InRange(l2.b * l1.c - l1.b * l2.c)
    && InRange(l1.a * l2.c) && InRange(l2.a * l1.c) && InRange(l1.a * l2.c - l2.a * l1.c)
  }

  /** Parallel edges always reach the division by zero, with or without
      wrap-around: the exact determinant vanishes, so its 32-bit value does
      too. */
  lemma ParallelEdgesFail(l1: LineEq, l2: LineEq)
    requires EquationInRange(l1) && EquationInRange(l2)
    requires l1.a * l2.b == l1.b * l2.a
    ensures IntersectByIntDivision(l1, l2) == Err(DivideByZero)
    ensures IntersectByDoubleDivision(l1, l2) == Err(UnspecifiedConversion)
  {
    WrapMul(l1.a, l2.b);
    WrapMul(l1.b, l2.a);
    WrapSub(l1.a * l2.b, l1.b * l2.a);
  }

  /** When nothing overflows and the two edges cross at an integer point,
      the integer solve returns exactly that point, and it lies on both
      edges. */
  lemma CornerOnBothEdges(l1: LineEq, l2: LineEq, p: Point)
    requires EquationInRange(l1) && EquationInRange(l2) && PointInRange(p)
    requires NoOverflow(l1, l2)
    requires l1.a * l2.b - l1.b * l2.a != 0
    requires l2.b * l1.c - l1.b * l2.c == (l1.a * l2.b - l1.b * l2.a) * p.x
    requires l1.a * l2.c - l2.a * l1.c == (l1.a * l2.b - l1.b * l2.a) * p.y
    ensures IntersectByIntDivision(l1, l2) == Ok(p)
    ensures OnLine(l1, p) && OnLine(l2, p)
  {
    var d := l1.a * l2.b - l1.b * l2.a;
    ExactCramer(l1, l2);
    ExactQuotientOk(d * p.x, d, p.x);
    ExactQuotientOk(d * p.y, d, p.y);
    CramerSolves(l1.a, l1.b, l1.c, l2.a, l2.b, l2.c, p.x, p.y);
  }

  /** The same holds for the corners solved with double division. */
  lemma DoubleCornerExact(l1: LineEq, l2: LineEq, p: Point)
    requires EquationInRange(l1) && EquationInRange(l2) && PointInRange(p)
    requires NoOverflow(l1, l2)
    requires l1.a * l2.b - l1.b * l2.a != 0
    requires l2.b * l1.c - l1.b * l2.c == (l1.a * l2.b - l1.b * l2.a) * p.x
    requires l1.a * l2.c - l2.a * l1.c == (l1.a * l2.b - l1.b * l2.a) * p.y
    ensures IntersectByDoubleDivision(l1, l2) == Ok(p)
  {
    CornerOnBothEdges(l1, l2, p);
    DivisionsAgree(l1, l2);
  }

  /** Without overflow, the 32-bit determinant and numerators are the exact ones. */
  lemma ExactCramer(l1: LineEq, l2: LineEq)
    requires NoOverflow(l1, l2)
    ensures Determinant(l1, l2) == l1.a * l2.b - l1.b * l2.a
    ensures NumeratorX(l1, l2) == l2.b * l1.c - l1.b * l2.c
    ensures NumeratorY(l1, l2) == l1.a * l2.c - l2.a * l1.c
  {
  }

  /** An int multiple of a non-zero divisor divides back exactly. */
  lemma ExactQuotientOk(n: int, d: int, q: int)
    requires InRange(n) && InRange(d) && InRange(q) && d != 0 && n == d * q
    ensures Div(n, d) == Ok(q)
  {
    if d == -1 {
      assert n == -q;
    }
    assert n == q * d;
  }

  /** Cramer's rule: the solution satisfies both equations. */
  lemma CramerSolves(a1: int, b1: int, c1: int, a2: int, b2: int, c2: int, x: int, y: int)
    requires a1 * b2 - b1 * a2 != 0
    requires b2 * c1 - b1 * c2 == (a1 * b2 - b1 * a2) * x
    requires a1 * c2 - a2 * c1 == (a1 * b2 - b1 * a2) * y
    ensures a1 * x + b1 * y == c1
    ensures a2 * x + b2 * y == c2
  {
    var d := a1 * b2 - b1 * a2;
    var nx, ny := b2 * c1 - b1 * c2, a1 * c2 - a2 * c1;
    Combination(d, a1, b1, x, y, nx, ny);
    Combination(d, a2, b2, x, y, nx, ny);
    FirstRow(a1, b1, c1, a2, b2, c2);
    SecondRow(a1, b1, c1, a2, b2, c2);
    CancelFactor(d, a1 * x + b1 * y, c1);
    CancelFactor(d, a2 * x + b2 * y, c2);
  }

  /** Scaling a combination of x and y is combining the scaled values. */
  lemma Combination(d: int, a: int, b: int, x: int, y: int, nx: int, ny: int)
    requires nx == d * x && ny == d * y
    ensures d * (a * x + b * y) == a * nx + b * ny
  {
  }

  lemma FirstRow(a1: int, b1: int, c1: int, a2: int, b2: int, c2: int)
    ensures a1 * (b2 * c1 - b1 * c2) + b1 * (a1 * c2 - a2 * c1) == (a1 * b2 - b1 * a2) * c1
  {
  }

  lemma SecondRow(a1: int, b1: int, c1: int, a2: int, b2: int, c2: int)
    ensures a2 * (b2 * c1 - b1 * c2) + b2 * (a1 * c2 - a2 * c1) == (a1 * b2 - b1 * a2) * c2
  {
  }

  lemma CancelFactor(d: int, u: int, v: int)
    requires d != 0 && d * u == d * v
    ensures u == v
  {
    assert d * (u - v) == 0;
  }

  /** The four boundary lines, each as the two points it is drawn through. */
  datatype Boundary = Boundary(left: EdgePoints, right: EdgePoints, top: EdgePoints, bottom: EdgePoints)

  /** The corners, computed in the order of the code: top-left with integer
      division (whose exceptions abort the computation), then top-right,
      bottom-right and bottom-left with double division. */
  function LocateCorners(edges: Boundary): (r: Result<Quad, ArithError>)
    ensures
      var left, right := StandardForm(edges.left), StandardForm(edges.right);
      var top, bottom := StandardForm(edges.top), StandardForm(edges.bottom);
      && (r == Err(DivideByZero) <==> Determinant(left, top) == 0)
      && (r == Err(Overflow) <==> Determinant(left, top) != 0 && !IntSolvable(left, top))
      && (r.Ok? <==>
            IntSolvable(left, top) && CastSolvable(right, top)
            && CastSolvable(right, bottom) && CastSolvable(left, bottom))
      && (r.Ok? ==>
            && TruncatedSolution(left, top, r.value.topLeft)
            && TruncatedSolution(right, top, r.value.topRight)
            && TruncatedSolution(right, bottom, r.value.bottomRight)
            && TruncatedSolution(left, bottom, r.value.bottomLeft))
  {
    var left, right := StandardForm(edges.left), StandardForm(edges.right);
    var top, bottom := StandardForm(edges.top), StandardForm(edges.bottom);
    match IntersectByIntDivision(left, top)
    case Err(e) => Err(e)
    case Ok(tl) =>
      match IntersectByDoubleDivision(right, top)
      case Err(e) => Err(e)
      case Ok(tr) =>
        match IntersectByDoubleDivision(right, bottom)
        case Err(e) => Err(e)
        case Ok(br) =>
          match IntersectByDoubleDivision(left, bottom)
          case Err(e) => Err(e)
          case Ok(bl) => Ok(Quad(tl, tr, br, bl))
  }

  /** The axis-aligned square with corners (0,0), (100,0), (100,100) and
      (0,100), each edge drawn across a 100 by 100 image. */
  function SquareBoundary(): Boundary {
    Boundary(
      EdgePoints(Point(0, 0), Point(0, 100)),
      EdgePoints(Point(100, 0), Point(100, 100)),
      EdgePoints(Point(0, 0), Point(100, 0)),
      EdgePoints(Point(0, 100), Point(100, 100)))
  }

  lemma SquareCornersAreExact()
    ensures LocateCorners(SquareBoundary()) == Ok(Quad(Point(0, 0), Point(100, 0), Point(100, 100), Point(0, 100)))
  {
    SquareEquations();
    SquareTopLeft();
    SquareTopRight();
    SquareBottomRight();
    SquareBottomLeft();
    AssembleCorners(SquareBoundary(), Quad(Point(0, 0), Point(100, 0), Point(100, 100), Point(0, 100)));
  }

  /** The corners are assembled from the four solves. */
  lemma AssembleCorners(edges: Boundary, q: Quad)
    requires IntersectByIntDivision(StandardForm(edges.left), StandardForm(edges.top)) == Ok(q.topLeft)
    requires IntersectByDoubleDivision(StandardForm(edges.right), StandardForm(edges.top)) == Ok(q.topRight)
    requires IntersectByDoubleDivision(StandardForm(edges.right), StandardForm(edges.bottom)) == Ok(q.bottomRight)
    requires IntersectByDoubleDivision(StandardForm(edges.left), StandardForm(edges.bottom)) == Ok(q.bottomLeft)
    ensures LocateCorners(edges) == Ok(q)
  {
  }

  lemma SquareEquations()
    ensures StandardForm(SquareBoundary().left) == LineEq(100, 0, 0)
    ensures StandardForm(SquareBoundary().right) == LineEq(100, 0, 10000)
    ensures StandardForm(SquareBoundary().top) == LineEq(0, -100, 0)
    ensures StandardForm(SquareBoundary().bottom) == LineEq(0, -100, -10000)
  {
  }

  lemma SquareTopLeft()
    ensures IntersectByIntDivision(LineEq(100, 0, 0), LineEq(0, -100, 0)) == Ok(Point(0, 0))
  {
    CornerOnBothEdges(LineEq(100, 0, 0), LineEq(0, -100, 0), Point(0, 0));
  }

  lemma SquareTopRight()
    ensures IntersectByDoubleDivision(LineEq(100, 0, 10000), LineEq(0, -100, 0)) == Ok(Point(100, 0))
  {
    DoubleCornerExact(LineEq(100, 0, 10000), LineEq(0, -100, 0), Point(100, 0));
  }

  lemma SquareBottomRight()
    ensures IntersectByDoubleDivision(LineEq(100, 0, 10000), LineEq(0, -100, -10000)) == Ok(Point(100, 100))
  {
    DoubleCornerExact(LineEq(100, 0, 10000), LineEq(0, -100, -10000), Point(100, 100));
  }

  lemma SquareBottomLeft()
    ensures IntersectByDoubleDivision(LineEq(100, 0, 0), LineEq(0, -100, -10000)) == Ok(Point(0, 100))
  {
    DoubleCornerExact(LineEq(100, 0, 0), LineEq(0, -100, -10000), Point(0, 100));
  }

  /** The squared distance between two corners in 32-bit arithmetic. */
  function SquaredSide(p: Point, q: Point): (s: int)
    ensures InRange(s)
  {
    var dx := Sub(p.x, q.x);
    var dy := Sub(p.y, q.y);
    Add(Mul(dx, dx), Mul(dy, dy))
  }

  /** Corners closer than 2^15 in each coordinate give the exact squared
      distance. */
  lemma SquaredSideExact(p: Point, q: Point)
    requires PointInRange(p) && PointInRange(q)
    requires Abs(p.x - q.x) < 0x8000 && Abs(p.y - q.y) < 0x8000
    ensures SquaredSide(p, q) == (p.x - q.x) * (p.x - q.x) + (p.y - q.y) * (p.y - q.y)
  {
    SquareBelow(p.x - q.x);
    SquareBelow(p.y - q.y);
  }

  lemma SquareBelow(d: int)
    requires Abs(d) < 0x8000
    ensures 0 <= d * d < 0x4000_0000
  {
    var a := Abs(d);
    assert d * d == a * a;
    MonotoneSquare(a, 0x7fff);
  }

  /** The bottom, right, top and left sides, in the order the code
      compares them. */
  function Sides(q: Quad): seq<int> {
    [SquaredSide(q.bottomLeft, q.bottomRight),
     SquaredSide(q.topRight, q.bottomRight),
     SquaredSide(q.topRight, q.topLeft),
     SquaredSide(q.bottomLeft, q.topLeft)]
  }

  /** The running maximum over the four squared sides. */
  function LongestSquaredSide(q: Quad): (m: int)
    ensures m in Sides(q)
    ensures forall k :: 0 <= k < 4 ==> Sides(q)[k] <= m
  {
    var s := Sides(q);
    var m0 := s[0];
    var m1 := if s[1] > m0 then s[1] else m0;
    var m2 := if s[2] > m1 then s[2] else m1;
    if s[3] > m2 then s[3] else m2
  }

  /** `r` is the square root of `n` rounded down. */
  predicate IsFloorRoot(r: nat, n: int) {
    r * r <= n < (r + 1) * (r + 1)
  }

  /** The integer square root, rounded down. */
  function FloorSqrt(n: nat): (r: nat)
    ensures r * r <= n < (r + 1) * (r + 1)
  {
    if n == 0 then 0
    else
      var t := FloorSqrt(n / 4);
      var s := 2 * t;
      var r := if (s + 1) * (s + 1) <= n then s + 1 else s;
      FloorSqrtStep(n, t, s, r);
      r
  }

  /** Doubling the root of `n / 4` leaves the root of `n` within one. */
  lemma FloorSqrtStep(n: nat, t: nat, s: nat, r: nat)
    requires t * t <= n / 4 < (t + 1) * (t + 1)
    requires s == 2 * t && r == if (s + 1) * (s + 1) <= n then s + 1 else s
    ensures r * r <= n < (r + 1) * (r + 1)
  {
    assert s * s == 4 * (t * t);
    assert (s + 2) * (s + 2) == 4 * ((t + 1) * (t + 1));
  }

  /** The bracket determines the root. */
  lemma FloorSqrtUnique(n: nat, r: nat)
    requires r * r <= n < (r + 1) * (r + 1)
    ensures FloorSqrt(n) == r
  {
    var f := FloorSqrt(n);
    SameBracket(n, f, r);
  }

  /** Two brackets of the same number have the same root. */
  lemma SameBracket(n: nat, f: nat, r: nat)
    requires f * f <= n < (f + 1) * (f + 1)
    requires r * r <= n < (r + 1) * (r + 1)
    ensures f == r
  {
    if f < r {
      MonotoneSquare(f + 1, r);
    } else if r < f {
      MonotoneSquare(r + 1, f);
    }
  }

  lemma MonotoneSquare(a: nat, b: nat)
    requires a <= b
    ensures a * a <= b * b
  {
    assert a * a <= a * b <= b * b;
  }

  /** `(int)Math.Sqrt(m)`: the root of a non-negative int, rounded down (the
      double root of an int is close enough to never cross an integer). A
      negative int, possible only after wrap-around, has a NaN root with no
      specified `int` value. */
  function SideLength(maxSquared: int): (r: Result<nat, ArithError>)
    ensures r.Err? <==> maxSquared < 0
    ensures r.Err? ==> r.error == UnspecifiedConversion
    ensures r.Ok? ==> IsFloorRoot(r.value, maxSquared)
  {
    if maxSquared < 0 then Err(UnspecifiedConversion) else Ok(FloorSqrt(maxSquared))
  }

  /** The destination square of side `length`: the rectified image is
      `length` pixels wide, so its last pixel is at `length - 1`. */
  function Destination(length: int): (d: Quad)
    ensures d.topLeft == Point(0, 0)
    ensures d.bottomRight == Point(length - 1, length - 1)
  {
    var e := length - 1;
    Quad(Point(0, 0), Point(e, 0), Point(e, e), Point(0, e))
  }

  /** The destination corners, taken in the order top-left, top-right,
      bottom-right, bottom-left, walk round a square: each side has the
      same length and turns a right angle onto the next. */
  lemma DestinationIsSquare(length: int)
    requires 1 <= length <= 46341
    ensures
      var d := Destination(length);
      var side := (length - 1) * (length - 1);
      && SquaredSide(d.topLeft, d.topRight) == side
      && SquaredSide(d.topRight, d.bottomRight) == side
      && SquaredSide(d.bottomRight, d.bottomLeft) == side
      && SquaredSide(d.bottomLeft, d.topLeft) == side
      && d.topRight.y == d.topLeft.y && d.bottomRight.x == d.topRight.x
      && d.bottomLeft.y == d.bottomRight.y && d.topLeft.x == d.bottomLeft.x
  {
    var d := Destination(length);
    var e := length - 1;
    MonotoneSquare(e, 46340);
    HorizontalSide(d.topLeft, d.topRight);
    VerticalSide(d.topRight, d.bottomRight);
    HorizontalSide(d.bottomRight, d.bottomLeft);
    VerticalSide(d.bottomLeft, d.topLeft);
  }

  /** A side along a row, short enough not to wrap, has the exact squared length. */
  lemma HorizontalSide(p: Point, q: Point)
    requires PointInRange(p) && PointInRange(q) && p.y == q.y
    requires InRange(p.x - q.x) && InRange((p.x - q.x) * (p.x - q.x))
    ensures SquaredSide(p, q) == (p.x - q.x) * (p.x - q.x)
    ensures SquaredSide(p, q) == (q.x - p.x) * (q.x - p.x)
  {
    assert (p.x - q.x) * (p.x - q.x) == (q.x - p.x) * (q.x - p.x);
  }

  /** Likewise along a column. */
  lemma VerticalSide(p: Point, q: Point)
    requires PointInRange(p) && PointInRange(q) && p.x == q.x
    requires InRange(p.y - q.y) && InRange((p.y - q.y) * (p.y - q.y))
    ensures SquaredSide(p, q) == (p.y - q.y) * (p.y - q.y)
    ensures SquaredSide(p, q) == (q.y - p.y) * (q.y - p.y)
  {
    assert (p.y - q.y) * (p.y - q.y) == (q.y - p.y) * (q.y - p.y);
  }

  /** The perspective map sends the four source corners to the
      destination corners of the same name (the code lists both in the
      order top-left, top-right, bottom-right, bottom-left). */
  datatype Rectification = Rectification(source: Quad, destination: Quad, length: nat)

  /** The side length of the rectified square and the corner
      correspondence handed to the perspective transform. */
  function PlanRectification(q: Quad): (r: Result<Rectification, ArithError>)
    ensures r.Err? <==> LongestSquaredSide(q) < 0
    ensures r.Ok? ==>
      && IsFloorRoot(r.value.length, LongestSquaredSide(q))
      && r.value.source == q
      && r.value.destination == Destination(r.value.length)
  {
    var root := SideLength(LongestSquaredSide(q));
    if root.Err? then Err(root.error)
    else Ok(Rectification(q, Destination(root.value), root.value))
  }
}

=== FILE: edges.dfy ===
/** Choosing the four boundary lines among the merged lines
    (SudokuSolver/MainWindow.xaml.cs:115-153): one pass with running extrema
    that start from sentinel values. */
module Edges {
  import opened Lines

  /** The loop state: the four chosen lines and the running x-intercepts of
      the left and right ones. */
  datatype EdgeState = EdgeState(
    top: Line, bottom: Line, left: Line, right: Line,
    leftX: real, rightX: real)

  const InitialTop := Line(1000.0, 1000.0)
  const InitialBottom := Line(-1000.0, -1000.0)
  const InitialLeft := Line(1000.0, 1000.0)
  const InitialRight := Line(-1000.0, -1000.0)

  const Initial := EdgeState(InitialTop, InitialBottom, InitialLeft, InitialRight, 100000.0, 0.0)

  /** θ in (80°, 100°). */
  predicate InHorizontalBand(theta: real) {
    theta > Degrees(80.0) && theta < Degrees(100.0)
  }

  /** θ below 10° or above 170°. */
  predicate InVerticalBand(theta: real) {
    theta < Degrees(10.0) || theta > Degrees(170.0)
  }

  /** A live line the loop treats as a top/bottom candidate. */
  predicate IsHorizontal(l: Line) {
    l != Dead && InHorizontalBand(l.theta)
  }

  /** A live line the loop treats as a left/right candidate. */
  predicate IsVertical(l: Line) {
    l != Dead && !InHorizontalBand(l.theta) && InVerticalBand(l.theta)
  }

  /** One iteration of the loop. `xIntercept` stands for `p / Math.Cos(theta)`. */
  function Step(s: EdgeState, l: Line, xIntercept: (real, real) -> real): EdgeState {
    if l == Dead then s
    else if InHorizontalBand(l.theta) then
      s.(top := if l.rho < s.top.rho then l else s.top,
         bottom := if l.rho > s.bottom.rho then l else s.bottom)
    else if InVerticalBand(l.theta) then
      var x := xIntercept(l.rho, l.theta);
      if x > s.rightX then s.(right := l, rightX := x)
      else if x <= s.leftX then s.(left := l, leftX := x)
      else s
    else s
  }

  /** What one iteration may change: the marker and lines outside both
      bands change nothing; a horizontal-band line only moves top and
      bottom, toward smaller and larger ρ; a vertical-band line only moves
      left and right, and becomes left only with its own intercept. */
  lemma StepFrame(s: EdgeState, l: Line, xIntercept: (real, real) -> real)
    ensures var r := Step(s, l, xIntercept);
      && (!IsHorizontal(l) && !IsVertical(l) ==> r == s)
      && (IsHorizontal(l) ==>
          && r.left == s.left && r.right == s.right && r.leftX == s.leftX && r.rightX == s.rightX
          && r.top.rho <= s.top.rho && r.top.rho <= l.rho && (r.top == s.top || r.top == l)
          && r.bottom.rho >= s.bottom.rho && r.bottom.rho >= l.rho && (r.bottom == s.bottom || r.bottom == l))
      && (IsVertical(l) ==>
          && r.top == s.top && r.bottom == s.bottom
          && r.rightX >= s.rightX && r.leftX <= s.leftX
          && (r.right == l || r.rightX >= xIntercept(l.rho, l.theta))
          && (r.left == s.left || (r.left == l && r.leftX == xIntercept(l.rho, l.theta))))
  {
  }

  /** The state after the loop has run over `lines` in order. */
  function SelectEdges(lines: seq<Line>, xIntercept: (real, real) -> real): (s: EdgeState)
    ensures s.top.rho <= 1000.0 && s.bottom.rho >= -1000.0
    ensures s.leftX <= 100000.0 && s.rightX >= 0.0
    decreases |lines|
  {
    if |lines| == 0 then Initial
    else Step(SelectEdges(lines[..|lines| - 1], xIntercept), lines[|lines| - 1], xIntercept)
  }

  function XOf(l: Line, xIntercept: (real, real) -> real): real {
    xIntercept(l.rho, l.theta)
  }

  /** max(0, the x-intercepts of the vertical-band lines). */
  function MaxVerticalIntercept(lines: seq<Line>, xIntercept: (real, real) -> real): (m: real)
    ensures m >= 0.0
    ensures forall k :: 0 <= k < |lines| && IsVertical(lines[k]) ==> XOf(lines[k], xIntercept) <= m
    ensures m == 0.0 || exists k :: 0 <= k < |lines| && IsVertical(lines[k]) && m == XOf(lines[k], xIntercept)
    decreases |lines|
  {
    if |lines| == 0 then 0.0
    else
      var prefix := lines[..|lines| - 1];
      var m := MaxVerticalIntercept(prefix, xIntercept);
      var l := lines[|lines| - 1];
      assert forall k :: 0 <= k < |prefix| ==> prefix[k] == lines[k];
      if IsVertical(l) && XOf(l, xIntercept) > m then XOf(l, xIntercept) else m
  }

  /** Top is the first horizontal-band line with the smallest ρ, provided that
      ρ is below 1000; otherwise the sentinel stays, a line at exactly 1000
      included, since the test is a strict `<`. */
  lemma {:induction false} TopIsFirstMinimum(lines: seq<Line>, xIntercept: (real, real) -> real)
    ensures var t := SelectEdges(lines, xIntercept).top;
      && t.rho <= 1000.0
      && (forall k :: 0 <= k < |lines| && IsHorizontal(lines[k]) ==> t.rho <= lines[k].rho)
      && (t == InitialTop
          || exists k :: 0 <= k < |lines| && IsHorizontal(lines[k]) && t == lines[k] && t.rho < 1000.0
               && forall k' :: 0 <= k' < k && IsHorizontal(lines[k']) ==> lines[k'].rho > t.rho)
    decreases |lines|
  {
    if |lines| > 0 {
      var n := |lines| - 1;
      var prefix := lines[..n];
      TopIsFirstMinimum(prefix, xIntercept);
      var t := SelectEdges(prefix, xIntercept).top;
      assert forall k :: 0 <= k < n ==> prefix[k] == lines[k];
      var l := lines[n];
      if IsHorizontal(l) && l.rho < t.rho {
        assert SelectEdges(lines, xIntercept).top == l;
      } else {
        assert SelectEdges(lines, xIntercept).top == t;
        if t != InitialTop {
          var k :| 0 <= k < n && IsHorizontal(prefix[k]) && t == prefix[k] && t.rho < 1000.0
            && forall k' :: 0 <= k' < k && IsHorizontal(prefix[k']) ==> prefix[k'].rho > t.rho;
          assert IsHorizontal(lines[k]) && t == lines[k];
        }
      }
    }
  }

  /** Bottom is the first horizontal-band line with the largest ρ, provided
      that ρ is above -1000; otherwise the sentinel stays, a line at exactly
      -1000 included, since the test is a strict `>`. */
  lemma {:induction false} BottomIsFirstMaximum(lines: seq<Line>, xIntercept: (real, real) -> real)
    ensures var b := SelectEdges(lines, xIntercept).bottom;
      && b.rho >= -1000.0
      && (forall k :: 0 <= k < |lines| && IsHorizontal(lines[k]) ==> b.rho >= lines[k].rho)
      && (b == InitialBottom
          || exists k :: 0 <= k < |lines| && IsHorizontal(lines[k]) && b == lines[k] && b.rho > -1000.0
               && forall k' :: 0 <= k' < k && IsHorizontal(lines[k']) ==> lines[k'].rho < b.rho)
    decreases |lines|
  {
    if |lines| > 0 {
      var n := |lines| - 1;
      var prefix := lines[..n];
      BottomIsFirstMaximum(prefix, xIntercept);
      var b := SelectEdges(prefix, xIntercept).bottom;
      assert forall k :: 0 <= k < n ==> prefix[k] == lines[k];
      var l := lines[n];
      if IsHorizontal(l) && l.rho > b.rho {
        assert SelectEdges(lines, xIntercept).bottom == l;
      } else {
        assert SelectEdges(lines, xIntercept).bottom == b;
        if b != InitialBottom {
          var k :| 0 <= k < n && IsHorizontal(prefix[k]) && b == prefix[k] && b.rho > -1000.0
            && forall k' :: 0 <= k' < k && IsHorizontal(prefix[k']) ==> prefix[k'].rho < b.rho;
          assert IsHorizontal(lines[k]) && b == lines[k];
        }
      }
    }
  }

  /** Right is line k, the first vertical-band line reaching its intercept,
      which is positive. */
  ghost predicate FirstMaximumAt(lines: seq<Line>, xIntercept: (real, real) -> real, s: EdgeState, k: int)
    requires 0 <= k < |lines|
  {
    && IsVertical(lines[k]) && s.right == lines[k]
    && s.rightX == XOf(lines[k], xIntercept) && s.rightX > 0.0
    && forall k' :: 0 <= k' < k && IsVertical(lines[k']) ==> XOf(lines[k'], xIntercept) < s.rightX
  }

  /** Right is the sentinel with 0, or the first line attaining its value,
      which is then positive: a line with intercept 0 does not beat the
      starting value under the strict `>`. */
  ghost predicate RightIsFirstMax(lines: seq<Line>, xIntercept: (real, real) -> real, s: EdgeState) {
    (s.right == InitialRight && s.rightX == 0.0)
    || exists k :: 0 <= k < |lines| && FirstMaximumAt(lines, xIntercept, s, k)
  }

  /** Right is the first vertical-band line with the largest x-intercept,
      provided it is positive; the running value is that maximum (or 0). */
  lemma {:induction false} RightIsFirstMaximum(lines: seq<Line>, xIntercept: (real, real) -> real)
    ensures var s := SelectEdges(lines, xIntercept);
      && s.rightX == MaxVerticalIntercept(lines, xIntercept)
      && RightIsFirstMax(lines, xIntercept, s)
    decreases |lines|
  {
    if |lines| > 0 {
      var n := |lines| - 1;
      RightIsFirstMaximum(lines[..n], xIntercept);
      RightWitnessStep(lines, xIntercept);
      RightXIsMaximum(lines, xIntercept);
    }
  }

  lemma RightWitnessStep(lines: seq<Line>, xIntercept: (real, real) -> real)
    requires |lines| > 0
    requires var s := SelectEdges(lines[..|lines| - 1], xIntercept);
      s.rightX == MaxVerticalIntercept(lines[..|lines| - 1], xIntercept)
      && RightIsFirstMax(lines[..|lines| - 1], xIntercept, s)
    ensures RightIsFirstMax(lines, xIntercept, SelectEdges(lines, xIntercept))
  {
    var n := |lines| - 1;
    var prefix := lines[..n];
    var s, s' := SelectEdges(prefix, xIntercept), SelectEdges(lines, xIntercept);
    var l := lines[n];
    RightStep(s, l, xIntercept);
    if IsVertical(l) && XOf(l, xIntercept) > s.rightX {
      RightTakenAt(lines, prefix, xIntercept, s, s');
    } else if !(s.right == InitialRight && s.rightX == 0.0) {
      var k :| 0 <= k < n && FirstMaximumAt(prefix, xIntercept, s, k);
      RightKeptAt(lines, prefix, xIntercept, s, s', k);
    }
  }

  /** A line beating every earlier intercept is the first to reach its own. */
  lemma RightTakenAt(lines: seq<Line>, prefix: seq<Line>, xIntercept: (real, real) -> real, s: EdgeState, s': EdgeState)
    requires |lines| > 0 && prefix == lines[..|lines| - 1] && s.rightX >= 0.0
    requires forall k :: 0 <= k < |prefix| && IsVertical(prefix[k]) ==> XOf(prefix[k], xIntercept) <= s.rightX
    requires IsVertical(lines[|lines| - 1]) && XOf(lines[|lines| - 1], xIntercept) > s.rightX
    requires s'.right == lines[|lines| - 1] && s'.rightX == XOf(lines[|lines| - 1], xIntercept)
    ensures FirstMaximumAt(lines, xIntercept, s', |lines| - 1)
  {
    assert forall k :: 0 <= k < |prefix| ==> prefix[k] == lines[k];
  }

  /** An unchanged right keeps its witness in the longer sequence. */
  lemma RightKeptAt(lines: seq<Line>, prefix: seq<Line>, xIntercept: (real, real) -> real, s: EdgeState, s': EdgeState, k: int)
    requires |lines| > 0 && prefix == lines[..|lines| - 1] && 0 <= k < |prefix|
    requires FirstMaximumAt(prefix, xIntercept, s, k) && s'.right == s.right && s'.rightX == s.rightX
    ensures FirstMaximumAt(lines, xIntercept, s', k)
  {
    assert forall k :: 0 <= k < |prefix| ==> prefix[k] == lines[k];
  }

  /** The running right value is the largest vertical-band intercept, or 0. */
  lemma {:induction false} RightXIsMaximum(lines: seq<Line>, xIntercept: (real, real) -> real)
    ensures SelectEdges(lines, xIntercept).rightX == MaxVerticalIntercept(lines, xIntercept)
    decreases |lines|
  {
    if |lines| > 0 {
      var n := |lines| - 1;
      RightXIsMaximum(lines[..n], xIntercept);
      RightStep(SelectEdges(lines[..n], xIntercept), lines[n], xIntercept);
    }
  }

  /** One step moves right exactly when a vertical-band line beats the
      running value. */
  lemma RightStep(s: EdgeState, l: Line, xIntercept: (real, real) -> real)
    ensures var r := Step(s, l, xIntercept);
      if IsVertical(l) && XOf(l, xIntercept) > s.rightX then r.right == l && r.rightX == XOf(l, xIntercept)
      else r.right == s.right && r.rightX == s.rightX
  {
  }

  /** Top keeps its sentinel exactly when no horizontal-band line has ρ
      below 1000; a line at ρ = 1000 does not replace it. */
  lemma TopSentinelExactly(lines: seq<Line>, xIntercept: (real, real) -> real)
    ensures SelectEdges(lines, xIntercept).top == InitialTop
      <==> forall k :: 0 <= k < |lines| && IsHorizontal(lines[k]) ==> lines[k].rho >= 1000.0
  {
    TopIsFirstMinimum(lines, xIntercept);
  }

  /** Bottom keeps its sentinel exactly when no horizontal-band line has ρ
      above -1000. */
  lemma BottomSentinelExactly(lines: seq<Line>, xIntercept: (real, real) -> real)
    ensures SelectEdges(lines, xIntercept).bottom == InitialBottom
      <==> forall k :: 0 <= k < |lines| && IsHorizontal(lines[k]) ==> lines[k].rho <= -1000.0
  {
    BottomIsFirstMaximum(lines, xIntercept);
  }

  /** Without a positive x-intercept among the vertical-band lines, right
      keeps its sentinel and the running value stays 0. */
  lemma RightSentinelWithoutPositive(lines: seq<Line>, xIntercept: (real, real) -> real)
    requires forall k :: 0 <= k < |lines| && IsVertical(lines[k]) ==> XOf(lines[k], xIntercept) <= 0.0
    ensures SelectEdges(lines, xIntercept).right == InitialRight
    ensures SelectEdges(lines, xIntercept).rightX == 0.0
  {
    RightIsFirstMaximum(lines, xIntercept);
  }

  /** Line k sets a new right record: its x-intercept is positive and beats
      every vertical-band line before it. Such a line is taken as right and
      not considered for left in the same iteration. */
  predicate NewRightRecord(lines: seq<Line>, xIntercept: (real, real) -> real, k: int)
    requires 0 <= k < |lines|
  {
    XOf(lines[k], xIntercept) > 0.0
    && forall k' :: 0 <= k' < k && IsVertical(lines[k']) ==> XOf(lines[k'], xIntercept) < XOf(lines[k], xIntercept)
  }

  /** A vertical-band line the loop may take as left. */
  predicate LeftCandidate(lines: seq<Line>, xIntercept: (real, real) -> real, k: int)
    requires 0 <= k < |lines|
  {
    IsVertical(lines[k]) && !NewRightRecord(lines, xIntercept, k)
  }

  /** What the loop promises about left after running over `lines`. */
  ghost predicate LeftIsLastMinimum(lines: seq<Line>, xIntercept: (real, real) -> real, s: EdgeState) {
    && s.leftX <= 100000.0
    && (forall k :: 0 <= k < |lines| && LeftCandidate(lines, xIntercept, k) ==> s.leftX <= XOf(lines[k], xIntercept))
    && ((s.left == InitialLeft && s.leftX == 100000.0 && NoCandidateWithin(lines, xIntercept))
        || exists k :: 0 <= k < |lines| && LastMinimumAt(lines, xIntercept, s, k))
  }

  /** Every left candidate lies beyond the starting value 100000, so the
      `<=` test never fired. */
  ghost predicate NoCandidateWithin(lines: seq<Line>, xIntercept: (real, real) -> real) {
    forall k :: 0 <= k < |lines| && LeftCandidate(lines, xIntercept, k) ==> XOf(lines[k], xIntercept) > 100000.0
  }

  /** Left is line k, and no later candidate reaches its x-intercept. */
  ghost predicate LastMinimumAt(lines: seq<Line>, xIntercept: (real, real) -> real, s: EdgeState, k: int)
    requires 0 <= k < |lines|
  {
    && LeftCandidate(lines, xIntercept, k) && s.left == lines[k]
    && s.leftX == XOf(lines[k], xIntercept)
    && forall k' :: k < k' < |lines| && LeftCandidate(lines, xIntercept, k') ==> XOf(lines[k'], xIntercept) > s.leftX
  }

  /** Left is the LAST left candidate with the smallest x-intercept, provided
      it is at most 100000 (a candidate at exactly 100000 is taken, since the
      test is `<=`); otherwise the sentinel stays. */
  lemma {:induction false} LeftIsLastMinimumCandidate(lines: seq<Line>, xIntercept: (real, real) -> real)
    ensures LeftIsLastMinimum(lines, xIntercept, SelectEdges(lines, xIntercept))
    decreases |lines|
  {
    if |lines| > 0 {
      var n := |lines| - 1;
      LeftIsLastMinimumCandidate(lines[..n], xIntercept);
      RightIsFirstMaximum(lines[..n], xIntercept);
      LeftStep(lines, xIntercept);
    }
  }

  /** Left is some candidate exactly when a candidate lies at or below
      100000; otherwise the sentinel stays with its starting value. */
  lemma LeftSentinelExactly(lines: seq<Line>, xIntercept: (real, real) -> real)
    ensures (exists k :: 0 <= k < |lines| && LeftCandidate(lines, xIntercept, k) && XOf(lines[k], xIntercept) <= 100000.0)
      ==> exists k :: 0 <= k < |lines| && LastMinimumAt(lines, xIntercept, SelectEdges(lines, xIntercept), k)
    ensures NoCandidateWithin(lines, xIntercept)
      ==> SelectEdges(lines, xIntercept).left == InitialLeft && SelectEdges(lines, xIntercept).leftX == 100000.0
  {
    LeftIsLastMinimumCandidate(lines, xIntercept);
    if exists k :: 0 <= k < |lines| && LeftCandidate(lines, xIntercept, k) && XOf(lines[k], xIntercept) <= 100000.0 {
      var j :| 0 <= j < |lines| && LeftCandidate(lines, xIntercept, j) && XOf(lines[j], xIntercept) <= 100000.0;
      assert !NoCandidateWithin(lines, xIntercept);
    }
  }

  lemma LeftStep(lines: seq<Line>, xIntercept: (real, real) -> real)
    requires |lines| > 0
    requires LeftIsLastMinimum(lines[..|lines| - 1], xIntercept, SelectEdges(lines[..|lines| - 1], xIntercept))
    requires SelectEdges(lines[..|lines| - 1], xIntercept).rightX == MaxVerticalIntercept(lines[..|lines| - 1], xIntercept)
    ensures LeftIsLastMinimum(lines, xIntercept, SelectEdges(lines, xIntercept))
  {
    var n := |lines| - 1;
    var s := SelectEdges(lines[..n], xIntercept);
    RecordBeatsRunningRight(lines, xIntercept, s.rightX);
    PrefixCandidates(lines, xIntercept);
    if LeftCandidate(lines, xIntercept, n) && XOf(lines[n], xIntercept) <= s.leftX {
      LeftTaken(lines, xIntercept);
    } else {
      LeftKept(lines, xIntercept);
    }
  }

  /** A line lies in a prefix with the same candidacy it has in the whole. */
  lemma PrefixCandidates(lines: seq<Line>, xIntercept: (real, real) -> real)
    requires |lines| > 0
    ensures forall k :: 0 <= k < |lines| - 1 ==> lines[..|lines| - 1][k] == lines[k]
    ensures forall k :: 0 <= k < |lines| - 1 ==>
      LeftCandidate(lines[..|lines| - 1], xIntercept, k) == LeftCandidate(lines, xIntercept, k)
  {
  }

  /** The last line is a candidate at or below the running left value: it
      becomes left. */
  lemma LeftTaken(lines: seq<Line>, xIntercept: (real, real) -> real)
    requires |lines| > 0
    requires LeftIsLastMinimum(lines[..|lines| - 1], xIntercept, SelectEdges(lines[..|lines| - 1], xIntercept))
    requires var s := SelectEdges(lines[..|lines| - 1], xIntercept);
      (NewRightRecord(lines, xIntercept, |lines| - 1) <==> XOf(lines[|lines| - 1], xIntercept) > s.rightX)
      && LeftCandidate(lines, xIntercept, |lines| - 1) && XOf(lines[|lines| - 1], xIntercept) <= s.leftX
    requires forall k :: 0 <= k < |lines| - 1 ==> lines[..|lines| - 1][k] == lines[k]
    requires forall k :: 0 <= k < |lines| - 1 ==>
      LeftCandidate(lines[..|lines| - 1], xIntercept, k) == LeftCandidate(lines, xIntercept, k)
    ensures LeftIsLastMinimum(lines, xIntercept, SelectEdges(lines, xIntercept))
  {
    var n := |lines| - 1;
    var s' := SelectEdges(lines, xIntercept);
    assert s'.left == lines[n] && s'.leftX == XOf(lines[n], xIntercept);
    assert LastMinimumAt(lines, xIntercept, s', n);
  }

  /** Otherwise left keeps its value. */
  lemma LeftKept(lines: seq<Line>, xIntercept: (real, real) -> real)
    requires |lines| > 0
    requires LeftIsLastMinimum(lines[..|lines| - 1], xIntercept, SelectEdges(lines[..|lines| - 1], xIntercept))
    requires var s := SelectEdges(lines[..|lines| - 1], xIntercept);
      (NewRightRecord(lines, xIntercept, |lines| - 1) <==> XOf(lines[|lines| - 1], xIntercept) > s.rightX)
      && !(LeftCandidate(lines, xIntercept, |lines| - 1) && XOf(lines[|lines| - 1], xIntercept) <= s.leftX)
    requires forall k :: 0 <= k < |lines| - 1 ==> lines[..|lines| - 1][k] == lines[k]
    requires forall k :: 0 <= k < |lines| - 1 ==>
      LeftCandidate(lines[..|lines| - 1], xIntercept, k) == LeftCandidate(lines, xIntercept, k)
    ensures LeftIsLastMinimum(lines, xIntercept, SelectEdges(lines, xIntercept))
  {
    var n := |lines| - 1;
    var prefix := lines[..n];
    var s := SelectEdges(prefix, xIntercept);
    var s' := SelectEdges(lines, xIntercept);
    assert s'.left == s.left && s'.leftX == s.leftX;
    KeptMinimal(lines, prefix, xIntercept, s, s');
    if s.left == InitialLeft && s.leftX == 100000.0 && NoCandidateWithin(prefix, xIntercept) {
      KeptSentinel(lines, prefix, xIntercept, s);
    } else {
      var k :| 0 <= k < n && LastMinimumAt(prefix, xIntercept, s, k);
      KeptWitness(lines, xIntercept, s, s', k);
    }
  }

  /** No candidate within the starting value so far, and the last line not
      taken as left either: still none. */
  lemma KeptSentinel(lines: seq<Line>, prefix: seq<Line>, xIntercept: (real, real) -> real, s: EdgeState)
    requires |lines| > 0 && prefix == lines[..|lines| - 1] && s.leftX == 100000.0
    requires NoCandidateWithin(prefix, xIntercept)
    requires !(LeftCandidate(lines, xIntercept, |lines| - 1) && XOf(lines[|lines| - 1], xIntercept) <= s.leftX)
    requires forall k :: 0 <= k < |prefix| ==> prefix[k] == lines[k]
    requires forall k :: 0 <= k < |prefix| ==> LeftCandidate(prefix, xIntercept, k) == LeftCandidate(lines, xIntercept, k)
    ensures NoCandidateWithin(lines, xIntercept)
  {
    forall k | 0 <= k < |lines| && LeftCandidate(lines, xIntercept, k)
      ensures XOf(lines[k], xIntercept) > 100000.0
    {
      if k < |prefix| {
        assert LeftCandidate(prefix, xIntercept, k);
      }
    }
  }

  lemma KeptMinimal(lines: seq<Line>, prefix: seq<Line>, xIntercept: (real, real) -> real, s: EdgeState, s': EdgeState)
    requires |lines| > 0 && prefix == lines[..|lines| - 1] && s'.leftX == s.leftX
    requires forall k :: 0 <= k < |prefix| && LeftCandidate(prefix, xIntercept, k) ==>
      s.leftX <= XOf(prefix[k], xIntercept)
    requires !(LeftCandidate(lines, xIntercept, |lines| - 1) && XOf(lines[|lines| - 1], xIntercept) <= s.leftX)
    requires forall k :: 0 <= k < |prefix| ==> prefix[k] == lines[k]
    requires forall k :: 0 <= k < |prefix| ==> LeftCandidate(prefix, xIntercept, k) == LeftCandidate(lines, xIntercept, k)
    ensures forall k :: 0 <= k < |lines| && LeftCandidate(lines, xIntercept, k) ==> s'.leftX <= XOf(lines[k], xIntercept)
  {
  }

  lemma KeptWitness(lines: seq<Line>, xIntercept: (real, real) -> real, s: EdgeState, s': EdgeState, k: int)
    requires 0 <= k < |lines| - 1 && s'.leftX == s.leftX && s'.left == s.left
    requires LastMinimumAt(lines[..|lines| - 1], xIntercept, s, k)
    requires !(LeftCandidate(lines, xIntercept, |lines| - 1) && XOf(lines[|lines| - 1], xIntercept) <= s.leftX)
    requires forall k :: 0 <= k < |lines| - 1 ==> lines[..|lines| - 1][k] == lines[k]
    requires forall k :: 0 <= k < |lines| - 1 ==>
      LeftCandidate(lines[..|lines| - 1], xIntercept, k) == LeftCandidate(lines, xIntercept, k)
    ensures LastMinimumAt(lines, xIntercept, s', k)
  {
    var n := |lines| - 1;
    var prefix := lines[..n];
    forall k' | k < k' < |lines| && LeftCandidate(lines, xIntercept, k')
      ensures XOf(lines[k'], xIntercept) > s'.leftX
    {
      if k' < n {
        assert LeftCandidate(prefix, xIntercept, k');
        assert prefix[k'] == lines[k'];
      }
    }
  }

  /** The last line sets a new right record exactly when its x-intercept
      exceeds the running maximum of the lines before it. */
  lemma RecordBeatsRunningRight(lines: seq<Line>, xIntercept: (real, real) -> real, m: real)
    requires |lines| > 0 && m == MaxVerticalIntercept(lines[..|lines| - 1], xIntercept)
    ensures NewRightRecord(lines, xIntercept, |lines| - 1) <==> XOf(lines[|lines| - 1], xIntercept) > m
  {
    var n := |lines| - 1;
    assert forall k :: 0 <= k < n ==> lines[..n][k] == lines[k];
    if m != 0.0 {
      var k :| 0 <= k < n && IsVertical(lines[..n][k]) && m == XOf(lines[..n][k], xIntercept);
      assert IsVertical(lines[k]);
    }
  }

  /** A line that is neither horizontal nor vertical, the marker included,
      leaves the selection untouched. */
  predicate Ignored(l: Line) {
    !IsHorizontal(l) && !IsVertical(l)
  }

  function KeepCandidates(lines: seq<Line>): (r: seq<Line>)
    ensures forall k :: 0 <= k < |r| ==> !Ignored(r[k])
    ensures |r| <= |lines|
    decreases |lines|
  {
    if |lines| == 0 then []
    else
      var l := lines[|lines| - 1];
      KeepCandidates(lines[..|lines| - 1]) + (if Ignored(l) then [] else [l])
  }

  /** Dropping the marker lines and the lines outside both bands does not
      change any of the four chosen edges. */
  lemma {:induction false} IgnoredLinesDoNotMatter(lines: seq<Line>, xIntercept: (real, real) -> real)
    ensures SelectEdges(KeepCandidates(lines), xIntercept) == SelectEdges(lines, xIntercept)
    decreases |lines|
  {
    if |lines| > 0 {
      var n := |lines| - 1;
      var l := lines[n];
      IgnoredLinesDoNotMatter(lines[..n], xIntercept);
      var kept := KeepCandidates(lines[..n]);
      assert SelectEdges(lines, xIntercept) == Step(SelectEdges(lines[..n], xIntercept), l, xIntercept);
      if !Ignored(l) {
        assert KeepCandidates(lines) == kept + [l];
        assert (kept + [l])[..|kept|] == kept;
      } else {
        assert KeepCandidates(lines) == kept;
      }
    }
  }

  /** The x-intercept of a line at θ = 0 is its ρ. */
  function RhoIntercept(rho: real, theta: real): real {
    rho
  }

  /** As written, the `else if` at line 147 keeps a line that sets a new
      right record from being considered for left, and the first vertical
      line with a positive x-intercept always sets one (the running right
      value starts at 0). So two
      vertical lines read in increasing order of x never set left, while the
      same two lines in decreasing order do. */
  lemma LeftDependsOnOrder()
    ensures SelectEdges([Line(10.0, 0.0), Line(500.0, 0.0)], RhoIntercept).left == InitialLeft
    ensures SelectEdges([Line(500.0, 0.0), Line(10.0, 0.0)], RhoIntercept).left == Line(10.0, 0.0)
  {
    var a, b := Line(10.0, 0.0), Line(500.0, 0.0);
    assert [a, b][..1] == [a] && [a][..0] == [];
    assert [b, a][..1] == [b] && [b][..0] == [];
  }

  /** The loop step with the two vertical tests independent, as the top and
      bottom tests are: a line can set the right and the left edge alike. */
  function StepIntended(s: EdgeState, l: Line, xIntercept: (real, real) -> real): (r: EdgeState)
    ensures !IsVertical(l) ==> r == Step(s, l, xIntercept)
    ensures IsVertical(l) ==> r.top == s.top && r.bottom == s.bottom
  {
    if IsVertical(l) then
      var x := xIntercept(l.rho, l.theta);
      var s1 := if x > s.rightX then s.(right := l, rightX := x) else s;
      if x <= s1.leftX then s1.(left := l, leftX := x) else s1
    else Step(s, l, xIntercept)
  }

  function SelectEdgesIntended(lines: seq<Line>, xIntercept: (real, real) -> real): EdgeState
    decreases |lines|
  {
    if |lines| == 0 then Initial
    else StepIntended(SelectEdgesIntended(lines[..|lines| - 1], xIntercept), lines[|lines| - 1], xIntercept)
  }

  /** With independent tests, left is the vertical-band line with the
      smallest x-intercept (the last such line on a tie), provided it is at
      most 100000: its value depends only on which lines there are, not on
      their order. */
  lemma {:induction false} IntendedLeftIsMinimum(lines: seq<Line>, xIntercept: (real, real) -> real)
    ensures var s := SelectEdgesIntended(lines, xIntercept);
      && s.leftX <= 100000.0
      && (forall k :: 0 <= k < |lines| && IsVertical(lines[k]) ==> s.leftX <= XOf(lines[k], xIntercept))
      && ((s.left == InitialLeft && s.leftX == 100000.0)
          || exists k :: 0 <= k < |lines| && IsVertical(lines[k]) && s.left == lines[k]
               && s.leftX == XOf(lines[k], xIntercept))
    decreases |lines|
  {
    if |lines| > 0 {
      var n := |lines| - 1;
      var prefix := lines[..n];
      IntendedLeftIsMinimum(prefix, xIntercept);
      var s := SelectEdgesIntended(prefix, xIntercept);
      assert forall k :: 0 <= k < n ==> prefix[k] == lines[k];
      var l := lines[n];
      if IsVertical(l) && XOf(l, xIntercept) <= s.leftX {
        assert SelectEdgesIntended(lines, xIntercept).left == l;
      } else {
        assert SelectEdgesIntended(lines, xIntercept).left == s.left;
        assert SelectEdgesIntended(lines, xIntercept).leftX == s.leftX;
        if !(s.left == InitialLeft && s.leftX == 100000.0) {
          var k :| 0 <= k < n && IsVertical(prefix[k]) && s.left == prefix[k]
            && s.leftX == XOf(prefix[k], xIntercept);
          assert IsVertical(lines[k]) && s.left == lines[k];
        }
      }
    }
  }

  /** The two orders of the pair above now agree. */
  lemma IntendedLeftIgnoresOrder()
    ensures SelectEdgesIntended([Line(10.0, 0.0), Line(500.0, 0.0)], RhoIntercept).left == Line(10.0, 0.0)
    ensures SelectEdgesIntended([Line(500.0, 0.0), Line(10.0, 0.0)], RhoIntercept).left == Line(10.0, 0.0)
  {
    var a, b := Line(10.0, 0.0), Line(500.0, 0.0);
    assert [a, b][..1] == [a] && [a][..0] == [];
    assert [b, a][..1] == [b] && [b][..0] == [];
  }
}

=== FILE: int32.dfy ===
/** C# `int` arithmetic as the corner solver uses it: 32-bit two's complement
    values that wrap on overflow (the default unchecked context), integer
    division that truncates toward zero and throws on a zero divisor, and the
    `(int)` cast of a double quotient. */
module Int32 {
  import opened Results
  import opened Layout

  const Modulus: int := 0x1_0000_0000
  const MinValue: int := -0x8000_0000
  const MaxValue: int := 0x7fff_ffff

  predicate InRange(x: int) {
    MinValue <= x <= MaxValue
  }

  function Abs(x: int): nat {
    if x < 0 then -x else x
  }

  /** What an `int` holds after a computation whose exact result is x. */
  function Wrap(x: int): (r: int)
    ensures InRange(r)
    ensures InRange(x) ==> r == x
  {
    (x - MinValue) % Modulus + MinValue
  }

  /** Wrap removes whole turns of 2^32 and nothing else. */
  lemma WrapTurns(x: int)
    ensures x == Wrap(x) + Modulus * ((x - MinValue) / Modulus)
  {
  }

  /** Exact results a whole number of turns apart are stored as the same int. */
  lemma WrapCongruent(x: int, y: int, k: int)
    requires x == y + Modulus * k
    ensures Wrap(x) == Wrap(y)
  {
    var u := y - MinValue;
    DivMod(u, Modulus);
    assert x - MinValue == (u / Modulus + k) * Modulus + u % Modulus;
    DivModUnique(x - MinValue, Modulus, u / Modulus + k, u % Modulus);
  }

  /** Wrapping the operands first does not change a wrapped sum. */
  lemma WrapAdd(u: int, v: int)
    ensures Wrap(Wrap(u) + Wrap(v)) == Wrap(u + v)
  {
    var ku := (u - MinValue) / Modulus;
    var kv := (v - MinValue) / Modulus;
    WrapTurns(u);
    WrapTurns(v);
    WrapCongruent(Wrap(u) + Wrap(v), u + v, -ku - kv);
  }

  /** Wrapping the operands first does not change a wrapped difference. */
  lemma WrapSub(u: int, v: int)
    ensures Wrap(Wrap(u) - Wrap(v)) == Wrap(u - v)
  {
    var ku := (u - MinValue) / Modulus;
    var kv := (v - MinValue) / Modulus;
    WrapTurns(u);
    WrapTurns(v);
    WrapCongruent(Wrap(u) - Wrap(v), u - v, kv - ku);
  }

  /** Wrapping the operands first does not change a wrapped product. */
  lemma WrapMul(u: int, v: int)
    ensures Wrap(Wrap(u) * Wrap(v)) == Wrap(u * v)
  {
    var ku := (u - MinValue) / Modulus;
    var kv := (v - MinValue) / Modulus;
    WrapTurns(u);
    WrapTurns(v);
    var wu := Wrap(u);
    var wv := Wrap(v);
    assert wu == u - Modulus * ku;
    assert wv == v - Modulus * kv;
    var k := Modulus * ku * kv - ku * v - kv * u;
    assert wu * wv == u * v + Modulus * k by {
      calc {
        wu * wv;
        (u - Modulus * ku) * (v - Modulus * kv);
        u * v - Modulus * ku * v - Modulus * kv * u + Modulus * Modulus * ku * kv;
        u * v + Modulus * k;
      }
    }
    WrapCongruent(wu * wv, u * v, k);
  }

  /** C# `a + b`, `a - b` and `a * b` on `int` operands. */
  function Add(a: int, b: int): int { Wrap(a + b) }

  function Sub(a: int, b: int): int { Wrap(a - b) }

  function Mul(a: int, b: int): int { Wrap(a * b) }

  datatype ArithError =
    | DivideByZero           // System.DivideByZeroException
    | Overflow               // System.OverflowException (int.MinValue / -1)
    | UnspecifiedConversion  // (int) of a NaN, an infinity or an out-of-range double

  /** Integer division rounding toward zero, as C# `/` does on `int`: the
      remainder it leaves is smaller than the divisor and has the sign of the
      dividend. */
  function TruncDiv(a: int, b: int): (q: int)
    requires b != 0
    ensures Abs(a - q * b) < Abs(b)
    ensures a - q * b == 0 || (a - q * b > 0 <==> a > 0)
  {
    if a >= 0 || a % b == 0 then
      EuclidExact(a, b);
      a / b
    else if b > 0 then
      EuclidUp(a, b);
      a / b + 1
    else
      EuclidDown(a, b);
      a / b - 1
  }

  /** With no negative remainder to correct, the Euclidean quotient truncates. */
  lemma EuclidExact(a: int, b: int)
    requires b != 0 && (a >= 0 || a % b == 0)
    ensures Abs(a - (a / b) * b) < Abs(b)
    ensures a - (a / b) * b == 0 || (a - (a / b) * b > 0 <==> a > 0)
  {
    DivMod(a, b);
  }

  /** A negative dividend over a positive divisor rounds one step up. */
  lemma EuclidUp(a: int, b: int)
    requires b > 0 && a < 0 && a % b != 0
    ensures Abs(a - (a / b + 1) * b) < Abs(b)
    ensures a - (a / b + 1) * b < 0
  {
    DivMod(a, b);
    assert a - (a / b + 1) * b == a % b - b;
  }

  /** A negative dividend over a negative divisor rounds one step down. */
  lemma EuclidDown(a: int, b: int)
    requires b < 0 && a < 0 && a % b != 0
    ensures Abs(a - (a / b - 1) * b) < Abs(b)
    ensures a - (a / b - 1) * b < 0
  {
    DivMod(a, b);
    assert a - (a / b - 1) * b == a % b + b;
  }

  /** The two conditions on the remainder determine the quotient: any q
      leaving a remainder below the divisor with the dividend's sign is
      the truncated one. */
  lemma TruncDivUnique(a: int, b: int, q: int)
    requires b != 0 && Abs(a - q * b) < Abs(b)
    requires a - q * b == 0 || (a - q * b > 0 <==> a > 0)
    ensures q == TruncDiv(a, b)
  {
    var t := TruncDiv(a, b);
    var rq, rt := a - q * b, a - t * b;
    RemaindersClose(rq, rt, Abs(b), a > 0);
    Distribute(b, t, q);
    assert b * (t - q) == rq - rt;
    MultipleBelowDivisor(b, t - q);
  }

  /** Two remainders on the same side of zero, each below m in magnitude,
      differ by less than m. */
  lemma RemaindersClose(r1: int, r2: int, m: nat, positive: bool)
    requires Abs(r1) < m && Abs(r2) < m
    requires r1 == 0 || (r1 > 0 <==> positive)
    requires r2 == 0 || (r2 > 0 <==> positive)
    ensures Abs(r1 - r2) < m
  {
  }

  /** A multiple of d smaller than d in magnitude is zero. */
  lemma MultipleBelowDivisor(d: int, z: int)
    requires d != 0 && Abs(d * z) < Abs(d)
    ensures z == 0
  {
    AbsOfProduct(d, z);
    AtLeastOnce(Abs(d), Abs(z));
  }

  lemma AtLeastOnce(x: nat, y: nat)
    ensures y >= 1 ==> x * y >= x
  {
    if y >= 1 {
      assert x * y == x + x * (y - 1);
    }
  }

  lemma Distribute(b: int, x: int, y: int)
    ensures x * b - y * b == b * (x - y)
  {
  }

  /** C# `a / b` on `int` operands: throws on a zero divisor and on the one
      quotient that does not fit, int.MinValue / -1. */
  function Div(a: int, b: int): (r: Result<int, ArithError>)
    requires InRange(a) && InRange(b)
    ensures r == Err(DivideByZero) <==> b == 0
    ensures r == Err(Overflow) <==> b != 0 && a == MinValue && b == -1
    ensures r.Ok? <==> b != 0 && !(a == MinValue && b == -1)
    ensures r.Ok? ==> InRange(r.value) && Abs(a - r.value * b) < Abs(b)
    ensures r.Ok? ==> a - r.value * b == 0 || (a - r.value * b > 0 <==> a > 0)
    ensures forall q :: r.Ok? && a == q * b ==> r.value == q
  {
    if b == 0 then Err(DivideByZero)
    else if a == MinValue && b == -1 then Err(Overflow)
    else
      var q := TruncDiv(a, b);
      ExactQuotient(a, b, q);
      TruncDivInRange(a, b);
      Ok(q)
  }

  /** Apart from int.MinValue / -1, the quotient of two ints is an int. */
  lemma TruncDivInRange(a: int, b: int)
    requires InRange(a) && InRange(b) && b != 0
    requires !(a == MinValue && b == -1)
    ensures InRange(TruncDiv(a, b))
  {
    var q := TruncDiv(a, b);
    if b == 1 {
      assert q * 1 == q;
    } else if b == -1 {
      assert q * -1 == -q;
    } else {
      QuotientShrinks(a, b, q);
    }
  }

  /** A divisor of magnitude two or more at least halves the dividend. */
  lemma QuotientShrinks(a: int, b: int, q: int)
    requires Abs(b) >= 2 && Abs(a - q * b) < Abs(b)
    ensures 2 * (Abs(q) - 1) < Abs(a)
  {
    AbsOfProduct(q, b);
    var qq, bb := Abs(q), Abs(b);
    assert qq * bb < Abs(a) + bb;
    if qq >= 1 {
      ShrinkNat(qq, bb, Abs(a));
    }
  }

  lemma ShrinkNat(qq: nat, bb: nat, aa: nat)
    requires qq >= 1 && bb >= 2 && qq * bb < aa + bb
    ensures 2 * (qq - 1) < aa
  {
    assert (qq - 1) * bb == qq * bb - bb;
    assert 2 * (qq - 1) <= (qq - 1) * bb;
  }

  lemma AbsOfProduct(x: int, y: int)
    ensures Abs(x * y) == Abs(x) * Abs(y)
  {
    if x < 0 && y < 0 {
      assert x * y == (-x) * (-y);
    } else if x < 0 {
      assert x * y == -((-x) * y);
    } else if y < 0 {
      assert x * y == -(x * (-y));
    }
  }

  /** When b divides a, truncating division returns the exact quotient. */
  lemma ExactQuotient(a: int, b: int, q: int)
    requires b != 0 && q == TruncDiv(a, b)
    ensures forall q' :: a == q' * b ==> q == q'
  {
    forall q' | a == q' * b
      ensures q == q'
    {
      Distribute(b, q', q);
      MultipleBelowDivisor(b, q' - q);
    }
  }

  /** `(int)v` for a double v: truncation toward zero. */
  function Truncate(v: real): (t: int)
    ensures v >= 0.0 ==> t as real <= v < t as real + 1.0
    ensures v < 0.0 ==> t as real - 1.0 < v <= t as real
  {
    if v >= 0.0 then v.Floor else -((-v).Floor)
  }

  /** `(int)((double)num / den)`: the double quotient of two ints, cast back
      to `int`. Both operands are exact in a double, and the rounded quotient
      truncates to the same integer as the exact one, so the quotient is taken
      over the reals. A zero divisor yields an infinity or a NaN, and a
      quotient out of range has no specified `int` value. */
  function CastQuotient(num: int, den: int): (r: Result<int, ArithError>)
    ensures r.Err? ==> r.error == UnspecifiedConversion
    ensures den == 0 ==> r.Err?
    ensures r.Ok? ==> InRange(r.value)
    ensures r.Ok? <==> den != 0 && InRange(TruncDiv(num, den))
    ensures r.Ok? ==> den != 0 && r.value == TruncDiv(num, den)
  {
    if den == 0 then Err(UnspecifiedConversion)
    else
      TruncateMatches(num, den);
      var t := Truncate(num as real / den as real);
      if InRange(t) then Ok(t) else Err(UnspecifiedConversion)
  }

  /** Where integer division neither throws nor overflows, dividing as
      doubles and casting back gives the same coordinate. */
  lemma CastQuotientMatchesDiv(num: int, den: int)
    requires InRange(num) && InRange(den) && den != 0
    requires InRange(TruncDiv(num, den))
    ensures CastQuotient(num, den) == Div(num, den)
  {
    TruncateMatches(num, den);
  }

  /** Truncating the real quotient is truncating integer division. */
  lemma TruncateMatches(num: int, den: int)
    requires den != 0
    ensures Truncate(num as real / den as real) == TruncDiv(num, den)
  {
    TruncateOfRatio(num, den, TruncDiv(num, den));
  }

  /** Any q leaving a remainder below the divisor, with the sign of the
      dividend, is the truncated real quotient. */
  lemma TruncateOfRatio(num: int, den: int, q: int)
    requires den != 0
    requires Abs(num - q * den) < Abs(den)
    requires num - q * den == 0 || (num - q * den > 0 <==> num > 0)
    ensures Truncate(num as real / den as real) == q
  {
    var rem := num - q * den;
    var d := den as real;
    var v := num as real / d;
    var f := v - q as real;
    ScaledFraction(num, den, q, rem, v, f);
    FractionBounds(f, d, rem as real);
    SameSide(v, f, d, num, rem, q);
    TruncateOf(v, q, f);
  }

  /** The quotient and its fractional part, scaled back by the divisor,
      give the dividend and the remainder. */
  lemma ScaledFraction(num: int, den: int, q: int, rem: int, v: real, f: real)
    requires den != 0 && rem == num - q * den && Abs(rem) < Abs(den)
    requires v == num as real / den as real && f == v - q as real
    ensures v * den as real == num as real && f * den as real == rem as real
    ensures (if rem as real < 0.0 then -(rem as real) else rem as real)
      < (if den as real < 0.0 then -(den as real) else den as real)
  {
    RatioTimes(num as real, den as real);
    RealOfProduct(q, den);
  }

  /** The fraction left over has the sign of the quotient. */
  lemma SameSide(v: real, f: real, d: real, num: int, rem: int, q: int)
    requires d != 0.0 && v * d == num as real && f * d == rem as real
    requires v == q as real + f && -1.0 < f < 1.0
    requires rem == 0 || (rem > 0 <==> num > 0)
    ensures v >= 0.0 ==> f >= 0.0
    ensures v < 0.0 ==> f <= 0.0
  {
    SignTimes(v, d);
    SignTimes(f, d);
  }

  lemma SignTimes(x: real, d: real)
    ensures x > 0.0 && d > 0.0 ==> x * d > 0.0
    ensures x < 0.0 && d > 0.0 ==> x * d < 0.0
    ensures x > 0.0 && d < 0.0 ==> x * d < 0.0
    ensures x < 0.0 && d < 0.0 ==> x * d > 0.0
    ensures x == 0.0 ==> x * d == 0.0
    ensures d != 0.0 && x * d == 0.0 ==> x == 0.0
  {
  }

  /** A value an integer plus a fraction of the value's own sign truncates
      to that integer. */
  lemma TruncateOf(v: real, q: int, f: real)
    requires v == q as real + f && -1.0 < f < 1.0
    requires v >= 0.0 ==> f >= 0.0
    requires v < 0.0 ==> f <= 0.0
    ensures Truncate(v) == q
  {
  }

  lemma RealOfProduct(m: int, d: int)
    ensures (m * d) as real == m as real * d as real
  {
  }

  lemma RatioTimes(n: real, d: real)
    requires d != 0.0
    ensures (n / d) * d == n
  {
  }

  /** f·d == r with |r| < |d| places f strictly between -1 and 1, on the
      side the signs of r and d give. */
  lemma FractionBounds(f: real, d: real, r: real)
    requires f * d == r && d != 0.0
    requires (if r < 0.0 then -r else r) < (if d < 0.0 then -d else d)
    ensures -1.0 < f < 1.0
    ensures (r >= 0.0) == (d > 0.0) ==> f >= 0.0
    ensures (r <= 0.0) == (d > 0.0) ==> f <= 0.0
  {
    if d > 0.0 {
      PositiveFraction(f, d, r);
    } else {
      assert f * -d == -r;
      PositiveFraction(f, -d, -r);
    }
  }

  lemma PositiveFraction(f: real, d: real, r: real)
    requires f * d == r && d > 0.0
    requires (if r < 0.0 then -r else r) < d
    ensures -1.0 < f < 1.0
    ensures r >= 0.0 ==> f >= 0.0
    ensures r <= 0.0 ==> f <= 0.0
  {
    if f >= 1.0 {
      AtLeastOneTimes(f, d);
    } else if f <= -1.0 {
      AtLeastOneTimes(-f, d);
    }
    if f > 0.0 {
      PositiveTimes(f, d);
    } else if f < 0.0 {
      PositiveTimes(-f, d);
    }
  }

  lemma AtLeastOneTimes(f: real, d: real)
    requires f >= 1.0 && d > 0.0
    ensures f * d >= d && (-f) * d <= -d
  {
  }

  lemma PositiveTimes(f: real, d: real)
    requires f > 0.0 && d > 0.0
    ensures f * d > 0.0 && (-f) * d < 0.0
  {
  }
}

=== FILE: layout.dfy ===
/** Row-major layout: position `y*d + x` of a buffer of rows of width `d`
    holds row `y`, column `x`. */
module Layout {
  lemma MulMono(a: int, b: int, d: int)
    ensures a <= b && 0 <= d ==> a * d <= b * d
  {
    if a <= b && 0 <= d {
      assert b * d - a * d == (b - a) * d;
    }
  }

  /** Dafny's `/` and `%` are Euclidean: the remainder is never negative. */
  lemma DivMod(n: int, d: int)
    requires d != 0
    ensures n == (n / d) * d + n % d && 0 <= n % d < if d > 0 then d else -d
  {
  }

  /** Division by `d` recovers the quotient and remainder it was built from. */
  lemma DivModUnique(n: int, d: int, q: int, r: int)
    requires 0 <= r < d && n == q * d + r
    ensures n / d == q && n % d == r
  {
    DivMod(n, d);
    var q' := n / d;
    MulMono(q + 1, q', d);
    MulMono(q' + 1, q, d);
    assert (q + 1) * d == q * d + d;
    assert (q' + 1) * d == q' * d + d;
  }

  /** Position `y*cols + x` of a `rows` by `cols` buffer is row `y`,
      column `x`. */
  lemma RowMajor(rows: nat, cols: nat, y: nat, x: nat)
    requires y < rows && x < cols
    ensures y * cols + x < rows * cols
    ensures (y * cols + x) / cols == y && (y * cols + x) % cols == x
  {
    MulMono(y + 1, rows, cols);
    assert (y + 1) * cols == y * cols + cols;
    DivModUnique(y * cols + x, cols, y, x);
  }
}

=== FILE: lines.dfy ===
/** Candidate lines in polar form and the O(n²) merge of near-duplicates
    (`MergeRelatedLines` in SudokuSolver/MainWindow.xaml.cs).

    Every match decision reads the ORIGINAL sequence, never the partly merged
    one, so the result at each index is simply the last value written there
    in the (i, j) scan order. */
module Lines {
  import opened Results

  /** A Hough line: offset ρ and angle θ (a `PointF` holding (ρ, θ)). */
  datatype Line = Line(rho: real, theta: real)

  /** The "merged away" marker (0, -100). */
  const Dead := Line(0.0, -100.0)

  /** System.Math.PI, the double nearest to π, written out exactly. */
  const Pi: real := 3.141592653589793115997963468544185161590576171875

  /** The angle `Math.PI * d / 180` in radians. */
  function Degrees(d: real): real {
    Pi * d / 180.0
  }

  function RealAbs(x: real): real {
    if x < 0.0 then -x else x
  }

  datatype PointR = PointR(x: real, y: real)

  /** The two points where a line crosses the image border. */
  datatype Segment = Segment(p1: PointR, p2: PointR)

  /** The trigonometric endpoint formulas, left uninterpreted: each takes
      (ρ, θ, image width, image height). The formula for the line being
      scanned and the one for its candidate partner differ in sign in the
      near-horizontal regime, so they are two separate functions. */
  datatype Geometry = Geometry(
    width: int,
    height: int,
    currentEnds: (real, real, int, int) -> Segment,
    partnerEnds: (real, real, int, int) -> Segment)

  function CurrentEnds(g: Geometry, l: Line): Segment {
    g.currentEnds(l.rho, l.theta, g.width, g.height)
  }

  function PartnerEnds(g: Geometry, l: Line): Segment {
    g.partnerEnds(l.rho, l.theta, g.width, g.height)
  }

  /** |Δρ| < 20 and |Δθ| < 10°. */
  predicate WithinTolerance(current: Line, pos: Line) {
    RealAbs(pos.rho - current.rho) < 20.0 && RealAbs(pos.theta - current.theta) < Degrees(10.0)
  }

  function SquaredDistance(a: PointR, b: PointR): real {
    (a.x - b.x) * (a.x - b.x) + (a.y - b.y) * (a.y - b.y)
  }

  /** Both border crossings of the partner lie within 64 px of the current line's. */
  predicate EndsClose(current: Segment, partner: Segment) {
    SquaredDistance(partner.p1, current.p1) < 64.0 * 64.0
    && SquaredDistance(partner.p2, current.p2) < 64.0 * 64.0
  }

  function Average(a: Line, b: Line): Line {
    Line((a.rho + b.rho) / 2.0, (a.theta + b.theta) / 2.0)
  }

  /** Scanning line i against line j writes the average into i and the
      marker into j. Both lines are read from the original sequence. */
  predicate Merges(g: Geometry, lines: seq<Line>, i: int, j: int)
    requires 0 <= i < |lines| && 0 <= j < |lines|
  {
    && lines[i] != Dead
    && lines[i] != lines[j]
    && WithinTolerance(lines[i], lines[j])
    && EndsClose(CurrentEnds(g, lines[i]), PartnerEnds(g, lines[j]))
  }

  /** The last partner of line i among the indices below `bound`. */
  function LastPartner(g: Geometry, lines: seq<Line>, i: int, bound: int): (r: Option<nat>)
    requires 0 <= i < |lines| && 0 <= bound <= |lines|
    ensures r.Some? ==> r.value < bound && Merges(g, lines, i, r.value)
    ensures r.Some? ==> forall j :: r.value < j < bound ==> !Merges(g, lines, i, j)
    ensures r.None? <==> forall j :: 0 <= j < bound ==> !Merges(g, lines, i, j)
    decreases bound
  {
    if bound == 0 then None
    else if Merges(g, lines, i, bound - 1) then Some(bound - 1)
    else LastPartner(g, lines, i, bound - 1)
  }

  /** What index k holds once rows 0 .. done-1 of the scan have run: the
      marker if a later row k < r < done absorbed line k; otherwise the average
      with its last partner if row k itself has run and merged; otherwise the
      marker if an earlier row absorbed it; otherwise the original line. */
  ghost function EntryAfterRows(g: Geometry, lines: seq<Line>, done: int, k: int): Line
    requires 0 <= done <= |lines| && 0 <= k < |lines|
  {
    if exists r :: k < r < done && Merges(g, lines, r, k) then Dead
    else if k < done && LastPartner(g, lines, k, |lines|).Some? then
      Average(lines[k], lines[LastPartner(g, lines, k, |lines|).value])
    else if exists r :: 0 <= r < done && r < k && Merges(g, lines, r, k) then Dead
    else lines[k]
  }

  /** The value the whole merge leaves at index k. */
  ghost function MergedEntry(g: Geometry, lines: seq<Line>, k: int): Line
    requires 0 <= k < |lines|
  {
    EntryAfterRows(g, lines, |lines|, k)
  }

  /** Finishing row i: every index row i marked becomes the marker, index i
      takes the average with its last partner, and nothing else changes. */
  lemma RowCompletes(g: Geometry, lines: seq<Line>, i: int, k: int)
    requires 0 <= i < |lines| && 0 <= k < |lines|
    ensures k != i ==>
      EntryAfterRows(g, lines, i + 1, k)
      == if Merges(g, lines, i, k) then Dead else EntryAfterRows(g, lines, i, k)
    ensures k == i ==>
      EntryAfterRows(g, lines, i + 1, k)
      == match LastPartner(g, lines, i, |lines|)
         case Some(p) => Average(lines[i], lines[p])
         case None => EntryAfterRows(g, lines, i, i)
  {
    if k < i {
      if Merges(g, lines, i, k) {
        assert k < i < i + 1;
      } else {
        assert (exists r :: k < r < i + 1 && Merges(g, lines, r, k))
          <==> (exists r :: k < r < i && Merges(g, lines, r, k));
      }
    } else if k > i {
      if Merges(g, lines, i, k) {
        assert 0 <= i < i + 1 && i < k;
      } else {
        assert (exists r :: 0 <= r < i + 1 && r < k && Merges(g, lines, r, k))
          <==> (exists r :: 0 <= r < i && r < k && Merges(g, lines, r, k));
      }
    }
  }

  /** Index i after comparing line i with lines 0 .. bound-1: the average
      with its last partner so far, or `fallback` if it has none yet. */
  ghost function AverageWithLastPartner(g: Geometry, lines: seq<Line>, i: int, bound: int, fallback: Line): Line
    requires 0 <= i < |lines| && 0 <= bound <= |lines|
  {
    match LastPartner(g, lines, i, bound)
    case Some(p) => Average(lines[i], lines[p])
    case None => fallback
  }

  /** One row of the scan (the inner loop, lines 378-417): line i, read from
      the original sequence, is compared with every line j. Each index j it
      matches gets the marker; index i ends up with the average of line i and
      its last partner; every other index keeps its value. */
  method ScanRow(g: Geometry, lines: seq<Line>, i: int, values: seq<Line>) returns (out: seq<Line>)
    requires 0 <= i < |lines| && |values| == |lines| && lines[i] != Dead
    ensures |out| == |lines|
    ensures forall k :: 0 <= k < |lines| && k != i ==>
      out[k] == if Merges(g, lines, i, k) then Dead else values[k]
    ensures out[i] == match LastPartner(g, lines, i, |lines|)
      case Some(p) => Average(lines[i], lines[p])
      case None => values[i]
  {
    out := values;
    var j := 0;
    while j < |lines|
      invariant 0 <= j <= |lines|
      invariant |out| == |lines|
      invariant forall k :: 0 <= k < |lines| && k != i ==>
        out[k] == if k < j && Merges(g, lines, i, k) then Dead else values[k]
      invariant out[i] == AverageWithLastPartner(g, lines, i, j, values[i])
    {
      out := CompareWith(g, lines, i, j, out);
      j := j + 1;
    }
  }

  /** The body of the inner loop: the test of line j against line i, with
      its write of the average into i and of the marker into j. */
  method CompareWith(g: Geometry, lines: seq<Line>, i: int, j: int, out: seq<Line>) returns (next: seq<Line>)
    requires 0 <= i < |lines| && 0 <= j < |lines| && |out| == |lines| && lines[i] != Dead
    ensures Merges(g, lines, i, j) ==> j != i && next == out[i := Average(lines[i], lines[j])][j := Dead]
    ensures !Merges(g, lines, i, j) ==> next == out
  {
    var current := lines[i];
    var pos := lines[j];
    next := out;
    if current != pos && WithinTolerance(current, pos) {
      var ends := PartnerEnds(g, pos);
      if EndsClose(CurrentEnds(g, current), ends) {
        next := out[i := Average(current, pos)][j := Dead];
      }
    }
  }

  /** MergeRelatedLines, lines 343-421: the result has one entry per input
      line, and each entry is the value the scan writes there last. */
  method MergeRelatedLines(g: Geometry, lines: seq<Line>) returns (values: seq<Line>)
    ensures |values| == |lines|
    ensures forall k :: 0 <= k < |lines| ==> values[k] == MergedEntry(g, lines, k)
  {
    values := lines;
    var i := 0;
    while i < |lines|
      invariant 0 <= i <= |lines|
      invariant |values| == |lines|
      invariant forall k :: 0 <= k < |lines| ==> values[k] == EntryAfterRows(g, lines, i, k)
    {
      if lines[i] != Dead {
        values := ScanRow(g, lines, i, values);
      } else {
        assert LastPartner(g, lines, i, |lines|).None?;
      }
      forall k | 0 <= k < |lines|
        ensures values[k] == EntryAfterRows(g, lines, i + 1, k)
      {
        RowCompletes(g, lines, i, k);
      }
      i := i + 1;
    }
  }

  /** Every entry of the result is the original line, the marker, or the
      average of the original line with one of its partners. */
  lemma MergedEntryIsOriginalMarkerOrAverage(g: Geometry, lines: seq<Line>, k: int)
    requires 0 <= k < |lines|
    ensures var e := MergedEntry(g, lines, k);
      e == lines[k] || e == Dead
      || exists j :: 0 <= j < |lines| && Merges(g, lines, k, j) && e == Average(lines[k], lines[j])
  {
    var p := LastPartner(g, lines, k, |lines|);
    if p.Some? {
      assert Merges(g, lines, k, p.value);
    }
  }

  /** A live line comes back unchanged exactly when it takes part in no merge,
      neither as the scanned line nor as a partner. */
  lemma UnchangedIffUnpartnered(g: Geometry, lines: seq<Line>, k: int)
    requires 0 <= k < |lines| && lines[k] != Dead
    ensures MergedEntry(g, lines, k) == lines[k]
      <==> forall m :: 0 <= m < |lines| ==> !Merges(g, lines, k, m) && !Merges(g, lines, m, k)
  {
    if forall m :: 0 <= m < |lines| ==> !Merges(g, lines, k, m) && !Merges(g, lines, m, k) {
      assert LastPartner(g, lines, k, |lines|).None?;
    } else {
      var p := LastPartner(g, lines, k, |lines|);
      if p.Some? {
        AverageMoves(lines[k], lines[p.value]);
      }
    }
  }

  /** The average of two different lines differs from both. */
  lemma AverageMoves(a: Line, b: Line)
    requires a != b
    ensures Average(a, b) != a && Average(a, b) != b
  {
  }

  /** Two lines with exactly equal (ρ, θ) never merge with each other, so a
      sequence of identical copies comes back unchanged. */
  lemma IdenticalCopiesSurvive(g: Geometry, lines: seq<Line>)
    requires forall m :: 0 <= m < |lines| ==> lines[m] == lines[0]
    ensures forall k :: 0 <= k < |lines| ==> MergedEntry(g, lines, k) == lines[k]
  {
    forall k | 0 <= k < |lines|
      ensures MergedEntry(g, lines, k) == lines[k]
    {
      if lines[k] != Dead {
        UnchangedIffUnpartnered(g, lines, k);
      } else {
        assert !exists r :: 0 <= r < |lines| && Merges(g, lines, r, k);
      }
    }
  }

  /** Two lines that merge with each other and with no other line, in
      either role, leave exactly one live representative, their average, and
      the marker at the other index, whatever other merges happen elsewhere. */
  lemma IsolatedPairLeavesOneRepresentative(g: Geometry, lines: seq<Line>, i: int, j: int)
    requires 0 <= i < j < |lines|
    requires Merges(g, lines, i, j)
    requires forall m :: 0 <= m < |lines| ==>
      && (Merges(g, lines, i, m) ==> m == j) && (Merges(g, lines, m, i) ==> m == j)
      && (Merges(g, lines, j, m) ==> m == i) && (Merges(g, lines, m, j) ==> m == i)
    ensures var ei, ej := MergedEntry(g, lines, i), MergedEntry(g, lines, j);
      (ei == Average(lines[i], lines[j]) && ej == Dead)
      || (ei == Dead && ej == Average(lines[i], lines[j]))
  {
    if Merges(g, lines, j, i) {
      assert LastPartner(g, lines, j, |lines|) == Some(i);
    } else {
      assert LastPartner(g, lines, i, |lines|) == Some(j);
      assert LastPartner(g, lines, j, |lines|).None?;
    }
  }
}

=== FILE: results.dfy ===
/** Success and failure values shared by every stage of the model. A C#
    exception that aborts an operation becomes an `Err`. */
module Results {

  datatype Option<+T> = None | Some(value: T)

  datatype Result<+T, +E> = Ok(value: T) | Err(error: E)
}

=== FILE: training.dfy ===
/** Loading the digit classifier. Each line of the training file is a label,
    a comma and the comma-separated pixel values of one sample; the samples
    become the rows of a rectangular matrix; then a saved model is read back
    if one exists, and otherwise a linear SVM is trained and saved. */
module Training {
  import opened Results
  import opened Layout
  import Int32

  const ModelPath: string := "svm.txt"

  /** The first position of `c` in `s`, or -1: an ordinal search, as
      `line.IndexOf(",")` is for a comma in the invariant or English culture. */
  function IndexOf(s: string, c: char): (r: int)
    ensures -1 <= r < |s|
    ensures r == -1 <==> c !in s
    ensures r >= 0 ==> s[r] == c && c !in s[..r]
  {
    if |s| == 0 then -1
    else if s[0] == c then 0
    else
      var k := IndexOf(s[1..], c);
      assert s == [s[0]] + s[1..];
      if k == -1 then -1
      else
        assert s[..k + 1] == [s[0]] + s[1..][..k];
        k + 1
  }

  /** The first occurrence of `c` in `a + [c] + b`, when `a` has none, is
      the one after `a`. */
  lemma IndexAfterPrefix(a: string, c: char, b: string)
    requires c !in a
    ensures IndexOf(a + [c] + b, c) == |a|
  {
    var s := a + [c] + b;
    var k := IndexOf(s, c);
    assert s[|a|] == c;
    assert s[..|a|] == a;
    PrefixOf(s, |a|, k);
  }

  /** A shorter prefix is a prefix of the longer one. */
  lemma PrefixOf(s: string, i: int, k: int)
    ensures 0 <= i < k <= |s| ==> s[i] in s[..k]
    ensures 0 <= k < i <= |s| ==> s[k] in s[..i]
  {
    if 0 <= i < k <= |s| {
      assert s[..k][i] == s[i];
    }
    if 0 <= k < i <= |s| {
      assert s[..i][k] == s[k];
    }
  }

  /** The occurrences of `c` after its first one are all but one of them. */
  lemma CountAround(s: string, k: int, c: char)
    requires 0 <= k < |s| && s[k] == c && c !in s[..k]
    ensures multiset(s)[c] == multiset(s[k + 1..])[c] + 1
  {
    assert s == s[..k] + [c] + s[k + 1..];
    assert multiset(s) == multiset(s[..k]) + multiset([c]) + multiset(s[k + 1..]);
  }

  /** The fields of `string.Split(c)`, joined back with `c`. */
  function Join(fields: seq<string>, c: char): string
    requires |fields| > 0
  {
    if |fields| == 1 then fields[0] else fields[0] + [c] + Join(fields[1..], c)
  }

  /** `s.Split(c)`: one more field than there are separators, none of them
      holding a separator, and together they give back `s`. */
  function Split(s: string, c: char): (fields: seq<string>)
    ensures |fields| == multiset(s)[c] + 1
    ensures forall f :: f in fields ==> c !in f
    ensures Join(fields, c) == s
    decreases |s|
  {
    var k := IndexOf(s, c);
    if k == -1 then
      assert multiset(s)[c] == 0;
      [s]
    else
      var rest := Split(s[k + 1..], c);
      CountAround(s, k, c);
      JoinFirst(s[..k], c, rest);
      Rejoin(s, k);
      FieldsWithout(s[..k], c, rest);
      [s[..k]] + rest
  }

  lemma JoinFirst(head: string, c: char, rest: seq<string>)
    requires |rest| > 0
    ensures Join([head] + rest, c) == head + [c] + Join(rest, c)
  {
    assert ([head] + rest)[1..] == rest;
  }

  lemma Rejoin(s: string, k: int)
    requires 0 <= k < |s|
    ensures s[..k] + [s[k]] + s[k + 1..] == s
  {
  }

  lemma FieldsWithout(head: string, c: char, rest: seq<string>)
    requires c !in head && forall f :: f in rest ==> c !in f
    ensures forall f :: f in [head] + rest ==> c !in f
  {
  }

  /** Splitting inverts joining, for fields without separators. */
  lemma {:induction false} SplitJoin(fields: seq<string>, c: char)
    requires |fields| > 0
    requires forall f :: f in fields ==> c !in f
    ensures Split(Join(fields, c), c) == fields
    decreases |fields|
  {
    assert fields[0] in fields;
    if |fields| > 1 {
      assert forall f :: f in fields[1..] ==> f in fields;
      SplitJoin(fields[1..], c);
      SplitFirst(fields[0], c, Join(fields[1..], c));
      assert fields == [fields[0]] + fields[1..];
    }
  }

  /** The first field ends at the first separator. */
  lemma SplitFirst(a: string, c: char, rest: string)
    requires c !in a
    ensures Split(a + [c] + rest, c) == [a] + Split(rest, c)
  {
    var s := a + [c] + rest;
    IndexAfterPrefix(a, c, rest);
    assert s[..|a|] == a;
    assert s[|a| + 1..] == rest;
  }

  /** The white space `Convert.ToInt32` skips around a number. */
  predicate IsWhite(ch: char) {
    '\t' <= ch <= '\r' || ch == ' '
  }

  predicate IsDigit(ch: char) {
    '0' <= ch <= '9'
  }

  predicate AllDigits(s: string) {
    forall k :: 0 <= k < |s| ==> IsDigit(s[k])
  }

  /** The length of the leading run of white space. */
  function WhiteSpan(s: string): (n: nat)
    ensures n <= |s|
    ensures forall k :: 0 <= k < n ==> IsWhite(s[k])
    ensures n < |s| ==> !IsWhite(s[n])
  {
    if |s| == 0 || !IsWhite(s[0]) then 0 else 1 + WhiteSpan(s[1..])
  }

  /** The length of the trailing run of white space. */
  function TrailingWhiteSpan(s: string): (n: nat)
    ensures n <= |s|
    ensures forall k :: |s| - n <= k < |s| ==> IsWhite(s[k])
    ensures n < |s| ==> !IsWhite(s[|s| - 1 - n])
  {
    if |s| == 0 || !IsWhite(s[|s| - 1]) then 0 else 1 + TrailingWhiteSpan(s[..|s| - 1])
  }

  /** `s` without its leading and trailing white space. */
  function Trim(s: string): string {
    var t := s[WhiteSpan(s)..];
    t[..|t| - TrailingWhiteSpan(t)]
  }

  /** The value of a run of decimal digits, most significant first. */
  function DigitsValue(ds: string): nat
    requires AllDigits(ds)
  {
    if |ds| == 0 then 0
    else DigitsValue(ds[..|ds| - 1]) * 10 + (ds[|ds| - 1] as int - '0' as int)
  }

  datatype ParseError =
    | Format    // System.FormatException
    | Overflow  // System.OverflowException

  /** `Convert.ToInt32(s)`: optional white space, an optional sign, one or
      more decimal digits, optional white space. A string of the wrong shape
      is a format error even when its digits would also overflow. */
  function ParseInt32(s: string): (r: Result<int, ParseError>)
    ensures r.Ok? ==> Int32.InRange(r.value)
    ensures r.Ok? ==> exists k :: 0 <= k < |s| && IsDigit(s[k])
  {
    var body := Trim(s);
    var r := ParseSigned(body);
    if r.Ok? then
      TrimmedDigit(s, body);
      r
    else r
  }

  /** The number left once the white space is gone. */
  function ParseSigned(body: string): (r: Result<int, ParseError>)
    ensures r.Ok? ==> Int32.InRange(r.value)
    ensures r.Ok? ==> exists k :: 0 <= k < |body| && IsDigit(body[k])
  {
    var signed := |body| > 0 && (body[0] == '+' || body[0] == '-');
    var digits := if signed then body[1..] else body;
    if |digits| == 0 || !AllDigits(digits) then Err(Format)
    else
      var magnitude := DigitsValue(digits);
      var v: int := if signed && body[0] == '-' then -(magnitude as int) else magnitude;
      assert IsDigit(body[if signed then 1 else 0]);
      if Int32.InRange(v) then Ok(v) else Err(Overflow)
  }

  /** A character of the trimmed text is a character of the text. */
  lemma TrimmedDigit(s: string, body: string)
    requires body == Trim(s)
    requires exists k :: 0 <= k < |body| && IsDigit(body[k])
    ensures exists k :: 0 <= k < |s| && IsDigit(s[k])
  {
    var a := WhiteSpan(s);
    var k :| 0 <= k < |body| && IsDigit(body[k]);
    assert body[k] == s[a + k];
  }

  /** White space in front of a number does not change what it parses to. */
  lemma LeadingWhiteIgnored(w: char, s: string)
    requires IsWhite(w)
    ensures ParseInt32([w] + s) == ParseInt32(s)
  {
    var s' := [w] + s;
    assert s'[1..] == s;
    assert WhiteSpan(s') == 1 + WhiteSpan(s);
    assert s'[WhiteSpan(s')..] == s[WhiteSpan(s)..];
    assert Trim(s') == Trim(s);
  }

  /** Nor does white space after it. */
  lemma TrailingWhiteIgnored(s: string, w: char)
    requires IsWhite(w)
    ensures ParseInt32(s + [w]) == ParseInt32(s)
  {
    TrimDropsTrailingWhite(s, w);
  }

  lemma TrimDropsTrailingWhite(s: string, w: char)
    requires IsWhite(w)
    ensures Trim(s + [w]) == Trim(s)
  {
    var s' := s + [w];
    var a := WhiteSpan(s);
    WhiteSpanExtends(s, [w]);
    if a < |s| {
      var t := s[a..];
      assert s'[a..] == t + [w];
      TrailingSpanStep(t, w);
      ExtendedPrefix(t, w, |t| - TrailingWhiteSpan(t));
    } else {
      assert Trim(s') == [] && Trim(s) == [];
    }
  }

  /** One more white character at the end lengthens the trailing run by one. */
  lemma TrailingSpanStep(t: string, w: char)
    requires IsWhite(w)
    ensures TrailingWhiteSpan(t + [w]) == 1 + TrailingWhiteSpan(t)
  {
    var u := t + [w];
    assert u[|u| - 1] == w;
    assert u[..|u| - 1] == t;
  }

  lemma ExtendedPrefix(t: string, w: char, n: nat)
    requires n <= |t|
    ensures (t + [w])[..n] == t[..n]
  {
  }

  /** Appending to a string that is not all white space keeps its leading
      white run; appending white space to one that is extends the run. */
  lemma {:induction false} WhiteSpanExtends(s: string, x: string)
    requires forall k :: 0 <= k < |x| ==> IsWhite(x[k])
    ensures WhiteSpan(s) < |s| ==> WhiteSpan(s + x) == WhiteSpan(s)
    ensures WhiteSpan(s) == |s| ==> WhiteSpan(s + x) == |s| + |x|
    decreases |s| + |x|
  {
    if |s| == 0 {
      assert s + x == x;
      AllWhiteSpan(x);
    } else {
      assert (s + x)[0] == s[0];
      assert (s + x)[1..] == s[1..] + x;
      if IsWhite(s[0]) {
        WhiteSpanExtends(s[1..], x);
      }
    }
  }

  lemma {:induction false} AllWhiteSpan(x: string)
    requires forall k :: 0 <= k < |x| ==> IsWhite(x[k])
    ensures WhiteSpan(x) == |x|
    decreases |x|
  {
    if |x| > 0 {
      AllWhiteSpan(x[1..]);
    }
  }

  predicate AllWhite(s: string) {
    forall k :: 0 <= k < |s| ==> IsWhite(s[k])
  }

  predicate IsSign(sg: string) {
    sg == "" || sg == "+" || sg == "-"
  }

  /** `s` is white space `w1`, an optional sign `sg`, one or more decimal
      digits `ds` and white space `w2`, in that order. */
  predicate ShapedAs(s: string, w1: string, sg: string, ds: string, w2: string) {
    && s == w1 + sg + ds + w2
    && AllWhite(w1) && IsSign(sg) && |ds| > 0 && AllDigits(ds) && AllWhite(w2)
  }

  /** The text `Convert.ToInt32` accepts as a number (NumberStyles.Integer). */
  ghost predicate NumberShape(s: string) {
    exists w1, sg, ds, w2 :: ShapedAs(s, w1, sg, ds, w2)
  }

  /** The format error is raised exactly for text of any other shape; text of
      this shape parses or overflows. */
  lemma ShapeDecidesFormat(s: string)
    ensures ParseInt32(s) != Err(Format) <==> NumberShape(s)
  {
    if NumberShape(s) {
      var w1, sg, ds, w2 :| ShapedAs(s, w1, sg, ds, w2);
      ShapedParses(s, w1, sg, ds, w2);
    }
    if ParseInt32(s) != Err(Format) {
      ParsedIsShaped(s);
    }
  }

  lemma ShapedParses(s: string, w1: string, sg: string, ds: string, w2: string)
    requires ShapedAs(s, w1, sg, ds, w2)
    ensures ParseInt32(s) != Err(Format)
  {
    var core := sg + ds;
    assert core[|core| - 1] == ds[|ds| - 1];
    assert core[0] == if sg == "" then ds[0] else sg[0];
    assert s == w1 + core + w2;
    TrimOfShape(w1, core, w2);
    SignedDigits(sg, ds);
  }

  /** Trimming removes exactly the white space around a core with non-white ends. */
  lemma TrimOfShape(w1: string, core: string, w2: string)
    requires AllWhite(w1) && AllWhite(w2)
    requires |core| > 0 && !IsWhite(core[0]) && !IsWhite(core[|core| - 1])
    ensures Trim(w1 + core + w2) == core
  {
    var s := w1 + core + w2;
    assert s == w1 + (core + w2);
    assert (core + w2)[0] == core[0];
    LeadingRun(w1, core + w2);
    assert s[|w1|..] == core + w2;
    TrailingRun(core, w2);
    assert (core + w2)[..|core|] == core;
  }

  /** An optional sign followed by digits is never a format error. */
  lemma SignedDigits(sg: string, ds: string)
    requires IsSign(sg) && |ds| > 0 && AllDigits(ds)
    ensures ParseSigned(sg + ds) != Err(Format)
  {
    var core := sg + ds;
    if sg == "" {
      assert core == ds;
      assert IsDigit(ds[0]);
    } else {
      assert core[0] == sg[0];
      assert core[1..] == ds;
    }
  }

  lemma ParsedIsShaped(s: string)
    requires ParseInt32(s) != Err(Format)
    ensures NumberShape(s)
  {
    TrimSplits(s);
    EndsAreWhite(s);
    assert ParseSigned(Trim(s)) != Err(Format);
    var sg, ds := SignedShape(Trim(s));
    ShapeFrom(s, LeadingWhite(s), Trim(s), sg, ds, TrailingWhite(s));
  }

  lemma ShapeFrom(s: string, w1: string, body: string, sg: string, ds: string, w2: string)
    requires s == w1 + (body + w2) && body == sg + ds
    requires AllWhite(w1) && IsSign(sg) && |ds| > 0 && AllDigits(ds) && AllWhite(w2)
    ensures NumberShape(s)
  {
    Regroup(w1, sg, ds, w2);
    assert ShapedAs(s, w1, sg, ds, w2);
  }

  lemma Regroup(a: string, b: string, c: string, d: string)
    ensures a + ((b + c) + d) == a + b + c + d
  {
  }

  /** The white space `Trim` removes from the front of `s`. */
  function LeadingWhite(s: string): string {
    s[..WhiteSpan(s)]
  }

  /** The white space `Trim` removes from the back of `s`. */
  function TrailingWhite(s: string): string {
    var t := s[WhiteSpan(s)..];
    t[|t| - TrailingWhiteSpan(t)..]
  }

  /** A string is its trimmed form between the two runs `Trim` removes. */
  lemma TrimSplits(s: string)
    ensures s == LeadingWhite(s) + (Trim(s) + TrailingWhite(s))
  {
    var a := WhiteSpan(s);
    var t := s[a..];
    var c := |t| - TrailingWhiteSpan(t);
    assert Trim(s) == t[..c];
    SplitThree(s, a, t, c);
  }

  /** What `Trim` removes is white space. */
  lemma EndsAreWhite(s: string)
    ensures AllWhite(LeadingWhite(s)) && AllWhite(TrailingWhite(s))
  {
    LeadingRunIsWhite(s);
    TrailingRunIsWhite(s[WhiteSpan(s)..]);
  }

  /** Cutting a string at two points and gluing the pieces gives it back. */
  lemma SplitThree(s: string, a: nat, t: string, c: nat)
    requires a <= |s| && t == s[a..] && c <= |t|
    ensures s == s[..a] + (t[..c] + t[c..])
  {
    assert t == t[..c] + t[c..];
    assert s == s[..a] + s[a..];
  }

  lemma LeadingRunIsWhite(s: string)
    ensures AllWhite(s[..WhiteSpan(s)])
  {
    var w := s[..WhiteSpan(s)];
    forall k | 0 <= k < |w| ensures IsWhite(w[k]) {
      assert w[k] == s[k];
    }
  }

  lemma TrailingRunIsWhite(t: string)
    ensures AllWhite(t[|t| - TrailingWhiteSpan(t)..])
  {
    var b := TrailingWhiteSpan(t);
    var w := t[|t| - b..];
    forall k | 0 <= k < |w| ensures IsWhite(w[k]) {
      assert w[k] == t[|t| - b + k];
    }
  }

  /** Text that is not a format error is an optional sign and digits. */
  lemma SignedShape(body: string) returns (sg: string, ds: string)
    requires ParseSigned(body) != Err(Format)
    ensures body == sg + ds && IsSign(sg) && |ds| > 0 && AllDigits(ds)
  {
    var signed := |body| > 0 && (body[0] == '+' || body[0] == '-');
    if signed {
      sg, ds := body[..1], body[1..];
      assert sg == [body[0]];
    } else {
      sg, ds := "", body;
    }
  }

  /** White space in front of a non-white character is the whole leading run. */
  lemma {:induction false} LeadingRun(w: string, rest: string)
    requires AllWhite(w) && |rest| > 0 && !IsWhite(rest[0])
    ensures WhiteSpan(w + rest) == |w|
    decreases |w|
  {
    if |w| == 0 {
      assert w + rest == rest;
    } else {
      assert (w + rest)[1..] == w[1..] + rest;
      LeadingRun(w[1..], rest);
    }
  }

  /** White space after a non-white character is the whole trailing run. */
  lemma {:induction false} TrailingRun(rest: string, w: string)
    requires AllWhite(w) && |rest| > 0 && !IsWhite(rest[|rest| - 1])
    ensures TrailingWhiteSpan(rest + w) == |w|
    decreases |w|
  {
    if |w| == 0 {
      assert rest + w == rest;
    } else {
      var front := w[..|w| - 1];
      assert (rest + w)[..|rest + w| - 1] == rest + front;
      TrailingRun(rest, front);
    }
  }

  /** The decimal digits of `n`, most significant first, as `ToString` writes them. */
  function Digits(n: nat): (ds: string)
    ensures |ds| > 0 && AllDigits(ds)
    ensures DigitsValue(ds) == n
  {
    var last := ['0' + (n % 10) as char];
    if n < 10 then
      assert DigitsValue(last) == DigitsValue(last[..0]) * 10 + n;
      last
    else
      var front := Digits(n / 10);
      var ds := front + last;
      assert ds[..|ds| - 1] == front;
      ds
  }

  /** `n.ToString()` for an int. */
  function FormatInt(n: int): string {
    if n < 0 then "-" + Digits(-n) else Digits(n)
  }

  /** A written int parses back to itself. */
  lemma ParseFormatted(n: int)
    requires Int32.InRange(n)
    ensures ParseInt32(FormatInt(n)) == Ok(n)
  {
    var s := FormatInt(n);
    var ds := if n < 0 then Digits(-n) else Digits(n);
    assert !IsWhite(s[0]) && !IsWhite(s[|s| - 1]);
    assert WhiteSpan(s) == 0;
    assert s[0..] == s;
    assert TrailingWhiteSpan(s) == 0;
    assert Trim(s) == s;
    if n < 0 {
      assert s[1..] == ds;
    }
  }

  /** Text with no white space at either end is its own trimmed form. */
  lemma TrimNoWhite(s: string)
    requires |s| > 0 && !IsWhite(s[0]) && !IsWhite(s[|s| - 1])
    ensures Trim(s) == s
  {
    assert WhiteSpan(s) == 0;
    assert s[0..] == s;
    assert TrailingWhiteSpan(s) == 0;
  }

  /** An int written in decimal that does not fit in 32 bits overflows:
      the text has the right shape, so the error is not a format error. */
  lemma FormattedOverflows(n: int)
    requires !Int32.InRange(n)
    ensures ParseInt32(FormatInt(n)) == Err(Overflow)
  {
    var s := FormatInt(n);
    var ds := if n < 0 then Digits(-n) else Digits(n);
    TrimNoWhite(s);
    if n < 0 {
      assert s[1..] == ds;
    }
  }

  /** A leading plus sign is accepted and changes nothing. */
  lemma PlusSignAccepted(n: int)
    requires 0 <= n <= Int32.MaxValue
    ensures ParseInt32("+" + Digits(n)) == Ok(n)
  {
    var s := "+" + Digits(n);
    TrimNoWhite(s);
    assert s[1..] == Digits(n);
  }

  /** A leading zero does not change the value of a run of digits. */
  lemma {:induction false} LeadingZeroValue(ds: string)
    requires AllDigits(ds)
    ensures AllDigits("0" + ds) && DigitsValue("0" + ds) == DigitsValue(ds)
    decreases |ds|
  {
    var zs := "0" + ds;
    if |ds| > 0 {
      var front := ds[..|ds| - 1];
      LeadingZeroValue(front);
      assert zs[..|zs| - 1] == "0" + front;
      assert zs[|zs| - 1] == ds[|ds| - 1];
    } else {
      assert zs[..0] == "";
    }
  }

  /** Leading zeros are accepted: `"007"` reads as 7. */
  lemma LeadingZeroIgnored(ds: string)
    requires |ds| > 0 && AllDigits(ds)
    ensures ParseInt32("0" + ds) == ParseInt32(ds)
  {
    TrimNoWhite("0" + ds);
    TrimNoWhite(ds);
    LeadingZeroSigned(ds);
  }

  lemma LeadingZeroSigned(ds: string)
    requires |ds| > 0 && AllDigits(ds)
    ensures ParseSigned("0" + ds) == ParseSigned(ds)
  {
    LeadingZeroValue(ds);
    assert ("0" + ds)[0] == '0';
    assert ds[0] != '+' && ds[0] != '-';
  }

  /** No sign and no digit is a format error, whatever surrounds it. */
  lemma EmptyLabelIsFormatError()
    ensures ParseInt32("") == Err(Format)
    ensures ParseInt32(" - ") == Err(Format)
  {
    assert WhiteSpan(" - ") == 1;
    assert " - "[1..] == "- ";
    assert TrailingWhiteSpan("- ") == 1;
    assert Trim(" - ") == "-";
  }

  datatype RowError =
    | NoComma        // line.Substring(0, -1) throws ArgumentOutOfRangeException
    | LabelFormat    // Convert.ToInt32 throws FormatException
    | LabelOverflow  // Convert.ToInt32 throws OverflowException

  /** One training sample: its label and the text of its feature values. */
  datatype Row = Row(tag: int, fields: seq<string>)

  /** The text before the first comma of a line. */
  function LabelText(line: string): string
    requires ',' in line
  {
    line[..IndexOf(line, ',')]
  }

  /** The text after the first comma of a line. */
  function FeatureText(line: string): string
    requires ',' in line
  {
    line[IndexOf(line, ',') + 1..]
  }

  /** Parsing one line: the label is the text before the first comma, the
      features are the text after it, split at every further comma. */
  function ParseRow(line: string): (r: Result<Row, RowError>)
    ensures r == Err(NoComma) <==> ',' !in line
    ensures r.Ok? ==> Int32.InRange(r.value.tag)
    ensures r.Ok? ==> |r.value.fields| == multiset(line)[',']
    ensures r.Ok? ==> forall f :: f in r.value.fields ==> ',' !in f
    ensures r.Ok? ==>
      && ',' in line
      && ParseInt32(LabelText(line)) == Ok(r.value.tag)
      && Join(r.value.fields, ',') == FeatureText(line)
    ensures r == Err(LabelFormat) <==> ',' in line && ParseInt32(LabelText(line)) == Err(Format)
    ensures r == Err(LabelOverflow) <==> ',' in line && ParseInt32(LabelText(line)) == Err(Overflow)
  {
    var k := IndexOf(line, ',');
    if k == -1 then Err(NoComma)
    else
      CountAround(line, k, ',');
      match ParseInt32(line[..k])
      case Err(Format) => Err(LabelFormat)
      case Err(Overflow) => Err(LabelOverflow)
      case Ok(tag) => Ok(Row(tag, Split(line[k + 1..], ',')))
  }

  /** A sample written as `label,f1,...,fn` reads back as itself. */
  function FormatRow(row: Row): string
    requires |row.fields| > 0
  {
    FormatInt(row.tag) + [','] + Join(row.fields, ',')
  }

  lemma RowRoundTrip(row: Row)
    requires Int32.InRange(row.tag) && |row.fields| > 0
    requires forall f :: f in row.fields ==> ',' !in f
    ensures ParseRow(FormatRow(row)) == Ok(row)
  {
    var text := FormatInt(row.tag);
    var rest := Join(row.fields, ',');
    var line := text + [','] + rest;
    assert ',' !in text by {
      if row.tag < 0 {
        assert forall k :: 1 <= k < |text| ==> text[k] == Digits(-row.tag)[k - 1];
      }
    }
    IndexAfterPrefix(text, ',', rest);
    assert line[..|text|] == text;
    assert line[|text| + 1..] == rest;
    ParseFormatted(row.tag);
    SplitJoin(row.fields, ',');
  }

  /** A line that starts with a comma has an empty label. */
  lemma LeadingCommaIsFormatError(rest: string)
    ensures ParseRow([','] + rest) == Err(LabelFormat)
  {
    assert IndexOf([','] + rest, ',') == 0;
    assert ([','] + rest)[..0] == "";
    EmptyLabelIsFormatError();
  }

  datatype TrainingSet = TrainingSet(labels: seq<int>, rows: seq<seq<string>>)

  /** The read loop: every line parsed in order, labels and features
      collected side by side; the first bad line aborts the load. */
  method ReadTrainingFile(lines: seq<string>) returns (r: Result<TrainingSet, RowError>)
    ensures r.Ok? <==> forall k :: 0 <= k < |lines| ==> ParseRow(lines[k]).Ok?
    ensures r.Ok? ==>
      && |r.value.labels| == |lines| && |r.value.rows| == |lines|
      && forall k :: 0 <= k < |lines| ==> ParseRow(lines[k]) == Ok(Row(r.value.labels[k], r.value.rows[k]))
    ensures r.Err? ==>
      exists k :: 0 <= k < |lines| && ParseRow(lines[k]) == Err(r.error)
        && forall m :: 0 <= m < k ==> ParseRow(lines[m]).Ok?
  {
    var labels: seq<int> := [];
    var rows: seq<seq<string>> := [];
    for k := 0 to |lines|
      invariant |labels| == k && |rows| == k
      invariant forall m :: 0 <= m < k ==> ParseRow(lines[m]) == Ok(Row(labels[m], rows[m]))
    {
      var parsed := ParseRow(lines[k]);
      if parsed.Err? {
        return Err(parsed.error);
      }
      Collect(lines, labels, rows, k, parsed.value);
      labels := labels + [parsed.value.tag];
      rows := rows + [parsed.value.fields];
    }
    return Ok(TrainingSet(labels, rows));
  }

  /** Appending the parse of line `k` keeps every collected sample paired
      with its line. */
  lemma Collect(lines: seq<string>, labels: seq<int>, rows: seq<seq<string>>, k: nat, row: Row)
    requires k < |lines| && |labels| == k && |rows| == k
    requires forall m :: 0 <= m < k ==> ParseRow(lines[m]) == Ok(Row(labels[m], rows[m]))
    requires ParseRow(lines[k]) == Ok(row)
    ensures forall m :: 0 <= m < k + 1 ==>
      ParseRow(lines[m]) == Ok(Row((labels + [row.tag])[m], (rows + [row.fields])[m]))
  {
    forall m | 0 <= m < k + 1
      ensures ParseRow(lines[m]) == Ok(Row((labels + [row.tag])[m], (rows + [row.fields])[m]))
    {
      if m < k {
        assert (labels + [row.tag])[m] == labels[m];
        assert (rows + [row.fields])[m] == rows[m];
      }
    }
  }

  /** A `rows` by `cols` matrix stored row after row. */
  datatype Matrix<T> = Matrix(rows: nat, cols: nat, flat: seq<T>)

  predicate Shaped<T>(m: Matrix<T>) {
    |m.flat| == m.rows * m.cols
  }

  function At<T>(m: Matrix<T>, i: nat, j: nat): T
    requires Shaped(m) && i < m.rows && j < m.cols
  {
    RowMajor(m.rows, m.cols, i, j);
    m.flat[i * m.cols + j]
  }

  /** `source.GroupBy(row => row.Length).Single()` succeeds: there is a
      row, and all rows have the same length. */
  predicate Rectangular<T>(source: seq<seq<T>>) {
    |source| > 0 && forall i :: 0 <= i < |source| ==> |source[i]| == |source[0]|
  }

  datatype LoadError =
    | RowFailed(error: RowError)
    | NotRectangular  // InvalidOperationException from To2D

  /** Copying a jagged array into a matrix, element by element. */
  method To2D<T>(source: seq<seq<T>>) returns (r: Result<Matrix<T>, LoadError>)
    ensures r.Ok? <==> Rectangular(source)
    ensures r.Err? ==> r.error == NotRectangular
    ensures r.Ok? ==>
      && r.value.rows == |source| && r.value.cols == |source[0]| && Shaped(r.value)
      && forall i, j :: 0 <= i < r.value.rows && 0 <= j < r.value.cols ==> At(r.value, i, j) == source[i][j]
  {
    if !Rectangular(source) {
      return Err(NotRectangular);
    }
    var rows, cols := |source|, |source[0]|;
    var flat: seq<T> := [];
    for i := 0 to rows
      invariant |flat| == i * cols && Copied(flat, source, cols)
    {
      for j := 0 to cols
        invariant |flat| == i * cols + j && Copied(flat, source, cols)
      {
        CopyStep(flat, source, cols, i, j);
        flat := flat + [source[i][j]];
      }
      NextRow(i, cols);
    }
    var m := Matrix(rows, cols, flat);
    forall i, j | 0 <= i < rows && 0 <= j < cols
      ensures At(m, i, j) == source[i][j]
    {
      RowMajor(rows, cols, i, j);
    }
    return Ok(m);
  }

  /** Every element copied so far sits at its row-major position. */
  ghost predicate Copied<T>(flat: seq<T>, source: seq<seq<T>>, cols: nat) {
    forall k :: 0 <= k < |flat| ==>
      && cols > 0 && k / cols < |source| && k % cols < |source[k / cols]|
      && flat[k] == source[k / cols][k % cols]
  }

  lemma NextRow(i: int, cols: int)
    ensures i * cols + cols == (i + 1) * cols
  {
  }

  lemma CopyStep<T>(flat: seq<T>, source: seq<seq<T>>, cols: nat, i: nat, j: nat)
    requires i < |source| && j < cols == |source[i]| && |flat| == i * cols + j
    requires Copied(flat, source, cols)
    ensures Copied(flat + [source[i][j]], source, cols)
  {
    RowMajor(|source|, cols, i, j);
  }

  datatype Kernel = Linear
  datatype SvmType = CSvc

  /** The training parameters: C, gamma, the termination criteria (at most
      `maxIterations` iterations, or a change below `epsilon`), kernel and
      SVM type. Gamma plays no part with a linear kernel. */
  datatype SvmConfig = SvmConfig(c: real, gamma: real, maxIterations: nat, epsilon: real, kernel: Kernel, svmType: SvmType)

  const DefaultConfig: SvmConfig := SvmConfig(100.0, 0.005, 1000, 0.000001, Linear, CSvc)

  /** Where the classifier's model comes from. */
  datatype ModelSource =
    | ReadFrom(path: string)
    | TrainedAndSaved(config: SvmConfig, savedTo: string)

  datatype Recogniser = Recogniser(data: Matrix<string>, labels: seq<int>, model: ModelSource)

  /** The constructor: read the samples, shape them into a matrix, then
      load the model if its file exists and otherwise train and save one. */
  method Initialise(lines: seq<string>, modelFileExists: bool) returns (r: Result<Recogniser, LoadError>)
    ensures r.Err? && r.error.RowFailed? <==> exists k :: 0 <= k < |lines| && ParseRow(lines[k]).Err?
    ensures r.Ok? ==>
      && |r.value.labels| == |lines| == r.value.data.rows
      && forall k :: 0 <= k < |lines| ==> ParseRow(lines[k]).Ok? && ParseRow(lines[k]).value.tag == r.value.labels[k]
    ensures r.Ok? ==> (r.value.model.ReadFrom? <==> modelFileExists)
    ensures r.Ok? ==> r.value.model == if modelFileExists then ReadFrom(ModelPath) else TrainedAndSaved(DefaultConfig, ModelPath)
    ensures r == Err(NotRectangular) <==>
      (forall k :: 0 <= k < |lines| ==> ParseRow(lines[k]).Ok?) && !Rectangular(FeatureRows(lines))
    ensures r.Ok? ==> Matches(r.value.data, FeatureRows(lines))
  {
    var samples := ReadTrainingFile(lines);
    if samples.Err? {
      return Err(RowFailed(samples.error));
    }
    var read := samples.value;
    assert read.rows == FeatureRows(lines);
    var data := To2D(read.rows);
    if data.Err? {
      return Err(NotRectangular);
    }
    var model := if modelFileExists then ReadFrom(ModelPath) else TrainedAndSaved(DefaultConfig, ModelPath);
    return Ok(Recogniser(data.value, read.labels, model));
  }

  /** The matrix holds the rows of `source`, which are all as long as the
      first one. */
  predicate Matches(m: Matrix<string>, source: seq<seq<string>>) {
    && Rectangular(source) && Shaped(m)
    && m.rows == |source| && m.cols == |source[0]|
    && forall i, j :: 0 <= i < m.rows && 0 <= j < m.cols ==> At(m, i, j) == source[i][j]
  }

  /** The feature text of every line, empty for a line that does not parse. */
  function FeatureRows(lines: seq<string>): seq<seq<string>> {
    seq(|lines|, k requires 0 <= k < |lines| => match ParseRow(lines[k]) case Ok(row) => row.fields case Err(_) => [])
  }
}
